=== FILE: README.md ===
# QuickQuote core in Dafny

QuickQuote is a single-page quoting tool. A sales user keeps a product catalog,
builds quotes from line items and saves reusable quote templates. All of this
is stored in the browser's `localStorage`. This project models the parts of it
that are logic rather than rendering:

- **Pricing.** Each line's net is `price * quantity` less a percentage or fixed
  discount. Then come the subtotal, the global discount, the optional tax and
  the grand total. `Pricing.Recalc` writes those totals back into the quote,
  which the editor does after every change.
- **Line-item editing** in the quote editor and the template editor: add a
  catalog item, add a custom item, update or remove by id, and copy items under
  fresh ids when loading a template or saving as one.
- **Persistence.** The four `localStorage` keys (`qq_products`, `qq_quotes`,
  `qq_templates`, `qq_settings`) are modelled as a map. Reads fall back to the
  sample products, the default settings or the empty list. Quotes and templates
  are saved by upsert-by-id and deleted by id.
- **Page handlers**: duplicating a quote, cloning a template, the save guards,
  confirmation-gated deletes, the product form save, the search and status
  filters, and the dashboard figures.
- **Quote numbers** of the form `Q-YYYYMMDD-NNN`.

Modules:

| module | file | what it holds |
|---|---|---|
| `Wrappers` | wrappers.dfy | `Option`, `Result` |
| `Types` | types.dfy | the records and enums of `types.ts` |
| `Seed` | seed.dfy | `DEFAULT_USER_SETTINGS`, `SAMPLE_PRODUCTS` |
| `Collections` | collections.dfy | id-keyed sequence operations (filter, find, upsert, replace, delete), sums, descending sort |
| `Text` | text.dfy | ASCII lowercasing, substring search, decimal digits, padding, quote numbers |
| `Pricing` | pricing.dfy | line nets, totals, `Recalc` |
| `LineItems` | line_items.dfy | new items, patches, update/remove by id, id re-assignment |
| `Storage` | storage.dfy | `storageService` over an abstract store |
| `CreateQuote` | create_quote.dfy | the quote editor's handlers, as a step function over edits |
| `QuotesPage`, `TemplatesPage`, `ProductsPage`, `Dashboard` | *_page.dfy, dashboard.dfy | the list pages |

Modelling choices:

- Money and quantities are exact `real`s.
- Strings are `seq<char>`.
- `toLowerCase` maps only `A`–`Z`.
- `JSON.stringify`/`JSON.parse` are the identity.
- Fresh values are caller-supplied parameters:
  - `crypto.randomUUID()` becomes `freshId`, plus one id per copied item as `itemIds`.
  - `new Date().toISOString()` becomes `now`.
  - `new Date(s).getTime()` becomes `time`.
- A user's answer to `window.confirm` is a `bool`, and an answer to `prompt` is an `Option<string>`.
- A handler returns the new store. Where the page keeps a list, it also returns that list: the one re-read from storage after a write, or the loaded list unchanged when nothing was written.

Two behaviours of the code are worth knowing; the model keeps both as written:

- Stored lists are not forced to have unique ids. `saveQuote`/`saveTemplate`
  replace only the FIRST entry with a matching id, in place, while
  `deleteQuote`/`deleteTemplate` remove every entry with that id.
  `Storage.SaveQuote` states the first-match replacement, and it proves that
  a list with unique ids keeps them.
- The product form uses `editingProduct?.id || crypto.randomUUID()`. An edited
  product whose id is the empty string therefore gets the fresh id.
  `ProductsPage.FormProduct` models this as written.

## Model

| member | source | states |
|---|---|---|
| `Pricing.LineNet` | pages/CreateQuote.tsx:75-81 | a percentage line nets `price*qty*(100-v)/100`; a fixed line nets the gross less `v` |
| `Pricing.Calculate` | pages/CreateQuote.tsx:74-98 | subtotal is the sum of line nets; the global discount is `subtotal*v/100` under percentage and `v` under fixed; tax is 0 when disabled whatever the rate, else `(subtotal-discount)*rate/100`; grand total is `(subtotal-discount)+tax` |
| `Pricing.GrandTotalClosedForm` | pages/CreateQuote.tsx:84-90 | the grand total is `(subtotal-discount)*(100+rate)/100` with tax on and `subtotal-discount` with tax off; a percentage discount leaves `subtotal*(100-v)/100` |
| `Pricing.LineNetPercentage` | pages/CreateQuote.tsx:75-81 | a percentage line nets `price*qty*(100-v)/100`: the full gross at 0 %, nothing at 100 % |
| `Pricing.LineNetBounds` | pages/CreateQuote.tsx:75-81 | with non-negative price and quantity and a percentage between 0 and 100, the line net lies between 0 and the gross |
| `Pricing.NegativeLineNet` | pages/CreateQuote.tsx:77-80 | nothing is clamped: a fixed discount above the gross gives a negative line net |
| `Pricing.SubtotalAppend` | pages/CreateQuote.tsx:83 | the empty list sums to 0, and appending an item adds its net |
| `Pricing.SubtotalIsNetSum` | pages/CreateQuote.tsx:83 | the left-to-right `reduce` sum equals the right-to-left recursive sum of line nets |
| `Pricing.WorkedExample` | pages/CreateQuote.tsx:74-98 | one item priced 100 with quantity 2 and 10 % off, a fixed global discount of 5 and 10 % tax give totals 180, 5, 17.5 and 192.5 |
| `Pricing.Recalc` | pages/CreateQuote.tsx:100-106 | after recalculation the cached totals equal the totals due for the quote's inputs, no other field changes, and a consistent quote is left as it is |
| `Pricing.RecalcIdempotent` | pages/CreateQuote.tsx:100-106 | recalculating twice equals recalculating once, and a quote is consistent exactly when recalculation leaves it unchanged |
| `LineItems.FromProduct` | pages/CreateQuote.tsx:108-118 | a catalog line has the fresh id, the product's id, name, description and price, quantity 1, a 0 % discount and no notes, and nets the price |
| `LineItems.CustomItem` | pages/CreateQuote.tsx:123-131 | a custom line has the fresh id, no product, description or notes, name "Custom Service", price 0, quantity 1 and a 0 % discount, and nets 0 |
| `LineItems.Patch` | pages/CreateQuote.tsx:138 | the spread `{ ...item, ...updates }`: each of the nine fields is the patch's value when present and the item's when absent, so the empty patch keeps the item |
| `LineItems.PatchTwice` | pages/CreateQuote.tsx:138 | applying a patch twice equals applying it once, and patching an item with its own fields gives it back |
| `LineItems.ProductItemNet` | pages/CreateQuote.tsx:108-118 | a new catalog item nets exactly the product's price |
| `LineItems.CustomItemNet` | pages/CreateQuote.tsx:123-131 | a new custom item nets 0 |
| `LineItems.UpdateById` | pages/CreateQuote.tsx:135-140 | same length; items with another id unchanged at their index; every item with the id patched |
| `LineItems.UpdateAbsent` | pages/CreateQuote.tsx:135-140 | updating an id no item carries changes nothing |
| `LineItems.UpdateFrames` | pages/CreateQuote.tsx:135-140 | an update that does not touch the id leaves the items with other ids as they were, in order, and applying it twice equals applying it once |
| `LineItems.RemoveById` | pages/CreateQuote.tsx:142-147 | no item with the id remains; every item with another id keeps all its copies and the others have none; order is kept |
| `LineItems.WithIds` | pages/CreateQuote.tsx:170 | the copies equal the originals except for the id, in the same order; each copy carries its fresh id; distinct fresh ids give unique ids |
| `LineItems.SameButIdsSubtotal` | pages/CreateQuote.tsx:176-181 | items that differ only in ids have the same subtotal |
| `CreateQuote.NewQuote` | pages/CreateQuote.tsx:34-54 | a new quote is a draft with the fresh id, today's date, the given expiry, a blank customer (so it cannot be saved unedited), sales rep "John Doe", no items, a 0 % discount, zero totals consistent with them, tax on at the settings' rate and label, the settings' terms, empty internal notes, and the number built from the stored quote count |
| `CreateQuote.AddItem` | pages/CreateQuote.tsx:108-121 | exactly one item is appended, with quantity 1, a 0 % discount, no notes and the product's id, name, description and price; the header is unchanged and the subtotal grows by the price |
| `CreateQuote.AddCustomItem` | pages/CreateQuote.tsx:123-133 | exactly one "Custom Service" item at price 0, with no product, description or notes, is appended, and the totals of a consistent quote do not change |
| `CreateQuote.UpdateItem` | pages/CreateQuote.tsx:135-140 | the items are updated by id, the header is unchanged, the totals are recalculated, and an absent id changes no item |
| `CreateQuote.RemoveItem` | pages/CreateQuote.tsx:142-147 | exactly the items with the id are removed, every other item keeps all its copies in order, and the totals are recalculated |
| `CreateQuote.LoadTemplate` | pages/CreateQuote.tsx:176-181 | the quote's items become the template's items in order, equal to them except that item `i` carries the `i`-th fresh id; distinct fresh ids give unique ids; the header is unchanged and the subtotal equals the template's |
| `CreateQuote.Step` | pages/CreateQuote.tsx:100-481 | after any edit the totals are recalculated; each field edit (customer, global discount type or value, tax flag or rate, status, expiry date, terms, internal notes) sets exactly that field and leaves every other header field and the items alone; editing the customer, status, expiry date, terms or notes leaves the totals as they were due |
| `CreateQuote.EditorStaysConsistent` | pages/CreateQuote.tsx:100-481 | from any consistent quote, a new one included, after any sequence of editor changes the cached totals equal the totals due |
| `CreateQuote.HandleSave` | pages/CreateQuote.tsx:149-157 | the save fails, storing nothing, exactly when the customer name or email is empty; otherwise the store is exactly that of `saveQuote`, so the quote is upserted and only the quotes key changes |
| `CreateQuote.AsTemplate` | pages/CreateQuote.tsx:166-171 | the template has the fresh id, the given name and the description "Template based on quote " + the quote number; its items equal the quote's except that item `i` carries the `i`-th fresh id, so the subtotal is the same; distinct fresh ids give unique ids |
| `CreateQuote.HandleSaveAsTemplate` | pages/CreateQuote.tsx:163-174 | a cancelled or empty name stores nothing; otherwise the template is stored, and with a fresh id it is appended at the end |
| `Storage.KeyName` | services/storageService.ts:5-10 | every key is a `qq_`-prefixed name |
| `Storage.KeyNamesDistinct` | services/storageService.ts:5-10 | the four keys name four different entries, so writing one never touches another |
| `Storage.GetProducts` | services/storageService.ts:14-21 | with no products stored, the three sample products are written and returned; otherwise the stored list is returned and the store is unchanged |
| `Storage.ProductsSeedOnce` | services/storageService.ts:14-21 | the first read seeds the three sample products, and a second read returns the same without seeding again |
| `Storage.SaveProducts` | services/storageService.ts:22-24 | the products key holds exactly the given list and no other key changes |
| `Storage.ProductsRoundTrip` | services/storageService.ts:14-24 | reading after `saveProducts` returns exactly the saved list |
| `Storage.SaveQuote` | services/storageService.ts:31-40 | the quote is stored; a present id keeps the length and the quote replaces, in place, the FIRST entry with its id while every other position is unchanged; a new id appends; unique ids stay unique; other keys are unchanged |
| `Storage.SaveQuoteIdempotent` | services/storageService.ts:31-40 | saving the same quote twice equals saving it once |
| `Storage.DeleteQuote` | services/storageService.ts:41-44 | no entry with the id remains; every other entry keeps all its copies, in order; an absent id changes nothing; unique ids stay unique |
| `Storage.SaveTemplate` | services/storageService.ts:51-60 | as for quotes, on the templates key: first-match replacement in place, otherwise append |
| `Storage.SaveTemplateIdempotent` | services/storageService.ts:51-60 | saving the same template twice equals saving it once |
| `Storage.DeleteTemplate` | services/storageService.ts:61-64 | as for quotes, on the templates key: every match removed, every other entry kept with all its copies, in order |
| `Storage.GetQuotes` | services/storageService.ts:27-30 | no stored quotes read as the empty list |
| `Storage.GetTemplates` | services/storageService.ts:47-50 | no stored templates read as the empty list |
| `Storage.GetSettings` | services/storageService.ts:67-70 | no stored settings read as the default settings |
| `Storage.SaveSettings` | services/storageService.ts:67-73 | reading after saving returns the saved settings, and no other key changes |
| `Storage.EmptyStoreDefaults` | services/storageService.ts:14-73 | an empty store reads as the sample products, no quotes, no templates and the default settings |
| `Storage.SavesAreIndependent` | services/storageService.ts:22-73 | saving quotes, templates or settings leaves the products, and each of the other lists and the settings, reading as before; saving products leaves quotes and templates as before |
| `QuotesPage.MatchesSearch` | pages/Quotes.tsx:30-31 | a quote matches exactly when the lowercased term occurs at some position of its lowercased customer name or number; the empty term matches every quote |
| `QuotesPage.MatchesStatus` | pages/Quotes.tsx:32 | "All" passes every quote, and a status's string value passes exactly the quotes with that status |
| `QuotesPage.FilteredQuotes` | pages/Quotes.tsx:29-34 | a quote is shown exactly when it is stored and matches both the search and the status filter, with as many copies as are stored; the shown list keeps the stored order |
| `QuotesPage.ShowAll` | pages/Quotes.tsx:29-34 | the empty term with filter "All" shows every stored quote |
| `QuotesPage.StatusFilterExact` | pages/Quotes.tsx:32 | filtering by a status name shows exactly the stored quotes with that status |
| `QuotesPage.SearchIgnoresCase` | pages/Quotes.tsx:30-31 | a search term and its lowercase form show the same quotes |
| `QuotesPage.Duplicate` | pages/Quotes.tsx:43-50 | the copy has the fresh id, the new number and date and status Draft; every other field is copied, so a consistent quote stays consistent |
| `QuotesPage.HandleDuplicate` | pages/Quotes.tsx:43-52 | the copy, numbered from the length of the page's whole loaded list (not the filtered one), is stored; with a fresh id the stored list grows by one at the end |
| `QuotesPage.HandleDelete` | pages/Quotes.tsx:36-41 | a declined delete changes neither the store nor the page's loaded list; a confirmed one is exactly `deleteQuote`, so only the quotes key changes, and the list re-read from the store lacks every quote with the id while every other quote keeps all its copies, in order |
| `TemplatesPage.Clone` | pages/Templates.tsx:28-34 | the clone has the fresh id, the name with " (Copy)" appended, the same description, and items equal to the original's except that item `i` carries the `i`-th fresh id |
| `TemplatesPage.HandleClone` | pages/Templates.tsx:28-36 | the clone is stored, and with a fresh id it is appended while the existing templates stay as they were |
| `TemplatesPage.HandleSaveTemplate` | pages/Templates.tsx:58-67 | the save fails, storing nothing, exactly when no template is being edited or its name is empty; otherwise the store is exactly that of `saveTemplate` |
| `TemplatesPage.AddItemToTemplate` | pages/Templates.tsx:69-86 | with no template open nothing happens; otherwise exactly one item with quantity 1, a 0 % discount, no notes and the product's id, name, description and price is appended and nothing else changes |
| `TemplatesPage.RemoveItemFromTemplate` | pages/Templates.tsx:88-94 | exactly the items with the id are removed, every other item keeps all its copies in order, and nothing else changes |
| `TemplatesPage.FilteredTemplates` | pages/Templates.tsx:96-99 | a template is shown exactly when its lowercased name or description contains the lowercased term, with all its copies; order is kept |
| `TemplatesPage.ShowAll` | pages/Templates.tsx:96-99 | the empty term shows every template |
| `TemplatesPage.HandleDelete` | pages/Templates.tsx:21-26 | a declined delete changes neither the store nor the page's loaded list; a confirmed one is exactly `deleteTemplate`, so only the templates key changes, and the list re-read from the store lacks every template with the id while every other template keeps all its copies, in order |
| `ProductsPage.FormProduct` | pages/Products.tsx:33-42 | editing keeps the edited product's id unless that id is empty, in which case it falls back to the fresh id; creating uses the fresh id; name, description, price, SKU, category, unit and the active flag come from the form, and there is no image |
| `ProductsPage.HandleSave` | pages/Products.tsx:30-55 | an edit is the `map` that replaces, at its index, every product with the matching id and keeps the others in place; a create appends exactly one product at the end; the list is what the store then reads |
| `ProductsPage.HandleDelete` | pages/Products.tsx:22-28 | a declined delete changes nothing; a confirmed one saves the remaining catalog with `saveProducts`, so only the products key changes, and removes exactly the products with the id, every other product keeping all its copies in order |
| `ProductsPage.FilteredProducts` | pages/Products.tsx:17-20 | a product is shown exactly when its lowercased name or SKU contains the lowercased term, with all its copies; order is kept |
| `ProductsPage.ShowAll` | pages/Products.tsx:17-20 | the empty term shows every product |
| `ProductsPage.PickerProducts` | pages/CreateQuote.tsx:535 | the product picker shows exactly the active products whose name matches, with all their copies, in catalog order |
| `Dashboard.DashboardStats` | pages/Dashboard.tsx:46-51 | the active count is at most the number of quotes; no quotes give all zeros; otherwise the average times the count is the total (the running sums are pinned down by `Dashboard.StatsAppend`) |
| `Dashboard.StatsAppend` | pages/Dashboard.tsx:47-49 | one more quote adds its grand total to the total value, counts once if sent or draft, and adds its grand total to the accepted value if accepted; with the all-zero empty case this fixes every figure |
| `Dashboard.TotalSplitsOnAccepted` | pages/Dashboard.tsx:47-49 | the total value is the accepted value plus the sum over the other quotes |
| `Dashboard.ActiveCountSplits` | pages/Dashboard.tsx:48 | the active quotes and the others together number all quotes |
| `Dashboard.AcceptedWithinTotal` | pages/Dashboard.tsx:47-49 | with non-negative grand totals, the accepted value lies between 0 and the total value |
| `Dashboard.RecentQuotes` | pages/Dashboard.tsx:53 | the recent list holds `min(5, n)` stored quotes, newest first, and no quote left out is newer than one shown |
| `Collections.FindIndex` | services/storageService.ts:33 | `findIndex` is -1 exactly when no record has the id; otherwise it is the position of the first record with the id |
| `Collections.Upsert` | services/storageService.ts:33-38 | the record is present; for a present id it replaces the first match at its index and every other position is unchanged; a new id appends; unique ids stay unique, and then the id's record is the new one |
| `Collections.UpsertIdempotent` | services/storageService.ts:33-38 | upserting the same record twice equals upserting it once |
| `Collections.Without` | services/storageService.ts:42 | no record with the id remains; a record with another id keeps all its copies; order is kept |
| `Collections.ReplaceById` | pages/Products.tsx:46 | every record with the id is replaced at its index and the others are kept; an absent id changes nothing |
| `Collections.Filter` | pages/Quotes.tsx:29 | an element passing the test keeps all its copies and one failing it has none, in input order |
| `Collections.SumPartition` | pages/Dashboard.tsx:47-49 | a sum splits into the sum over the elements a test keeps and over those it drops |
| `Collections.SortDescending` | pages/Dashboard.tsx:53 | the sort is a permutation of its input, ordered by key with the largest first |
| `Collections.Largest` | pages/Dashboard.tsx:53 | the top `n` by key: as many as there are up to `n`, drawn from the input, largest first, and nothing left out has a larger key |
| `Text.ToLower` | pages/Quotes.tsx:30-31 | `A`–`Z` become `a`–`z`, every other character is kept, and no upper-case letter remains |
| `Text.ToLowerIdempotent` | pages/Quotes.tsx:30-31 | lowercasing twice equals lowercasing once |
| `Text.Includes` | pages/Quotes.tsx:30-31 | `includes` holds exactly when the term occurs at some position of the text |
| `Text.MatchesProperties` | pages/Quotes.tsx:30-31 | the empty term matches every text, and a term matches exactly when its lowercase form does |
| `Text.DecimalString` | pages/CreateQuote.tsx:36 | `toString` of a count is a non-empty digit string with no leading zero |
| `Text.DecimalRoundTrip` | pages/CreateQuote.tsx:36 | `toString` of a count reads back as the same number |
| `Text.PadStart` | pages/CreateQuote.tsx:36 | `padStart` keeps the string as the suffix and fills only in front, up to the width |
| `Text.SequencePart` | pages/CreateQuote.tsx:36 | the sequence part is all digits and reads as the count plus one; it is exactly three digits below 999; when the count's decimal string already has three or more digits it is that string unpadded, so it never starts with a zero beyond three digits |
| `Text.Take` | pages/CreateQuote.tsx:36 | `slice(0, n)` is the first `n` characters, or the whole string when it is shorter |
| `Text.StripDashes` | pages/CreateQuote.tsx:36 | `replace(/-/g, '')` leaves no dash, keeps every other character with all its occurrences, in order, and leaves a dash-free string unchanged |
| `Text.BeforeFirst` | pages/CreateQuote.tsx:37 | `split(sep)[0]` is the prefix of the string that contains no separator and is followed by one or by the end |
| `Text.IsoDate` | pages/CreateQuote.tsx:37 | `split('T')[0]` of an ISO timestamp is its first ten characters, the date |
| `Text.QuoteNumber` | pages/CreateQuote.tsx:36 | the number starts with `Q-`, ends with `-` and the sequence part, and has no other dash |
| `Text.QuoteNumberShape` | pages/CreateQuote.tsx:36 | the number is `Q-` + year, month and day without dashes + `-` + the padded sequence, 14 characters below 999 quotes |
| `Text.QuoteNumberInjective` | pages/Quotes.tsx:47 | on the same day, different counts give different quote numbers |

## Left out

- Rendering, modals, routing, the sidebar, and all of `App.tsx`: these are UI.
- The settings page: its only logic is a wholesale `saveSettings`, which `Storage.SaveSettings` covers.
- PDF export (`pdfService.generateQuotePDF`): it is a foreign library and is not part of this model.
- `localStorage` and JSON as real I/O: the store is an abstract map and serialisation is the identity.
- Corrupt stored JSON: the store is required to hold the right kind of value under each key (`Storage.WellTyped`), because the code does not say what a bad value does.
- IEEE-754 double rounding and `toFixed`/`toLocaleString` formatting: arithmetic is exact over the reals.
- Clocks and randomness: `crypto.randomUUID()` and `new Date()` are parameters.
- `validUntil`: the 30-day offset computed from the clock is a parameter of `CreateQuote.NewQuote`.
- `Date` parsing for the dashboard sort is the parameter `time`. An unparsable date (NaN) is not modelled.
- `alert`, `prompt`, `window.confirm` and `window.history`: answers are inputs, messages are not modelled.
- React state and effect ordering: handlers are functions of the current quote, so stale-closure updates are not modelled.
- Loading an existing quote by route id (pages/CreateQuote.tsx:60-71) and the template hand-off on navigation: both are routing.
- Opening an empty or existing template or product form (`handleOpenCreate`, `handleOpenEdit`, `openEditModal`, `handleUse`): these only set modal state.
- `Number(...)` parsing of the product price field: the form holds the price already as a number.
- `Dashboard.RecentQuotes`: ties are kept in input order by the sort, but that stability is not stated in the contract.
- `Text.ToLower`: only ASCII `A`–`Z` are lowered, where `toLowerCase` covers all of Unicode.

=== FILE: collections.dfy ===
/** Order-preserving operations on id-keyed record lists: the `filter`,
    `findIndex`, replace-or-append and `reduce` idioms the storage service and
    the pages apply to products, line items, quotes and templates. The id of a
    record is read through an accessor, so one definition serves every record type. */
module Collections {

  /** `a` is obtained from `b` by deleting elements, keeping the order of the rest. */
  predicate IsSubsequence<T(==)>(a: seq<T>, b: seq<T>)
    decreases |b|
  {
    |a| == 0 || (|b| > 0 && ((a[0] == b[0] && IsSubsequence(a[1..], b[1..])) || IsSubsequence(a, b[1..])))
  }

  /** `Array.prototype.filter`: the elements satisfying `p`, in their original order. */
  function Filter<T(==,!new)>(xs: seq<T>, p: T -> bool): (r: seq<T>)
    ensures |r| <= |xs|
    ensures forall x :: x in r <==> x in xs && p(x)
    ensures forall x {:trigger multiset(r)[x]} :: multiset(r)[x] == if p(x) then multiset(xs)[x] else 0
    ensures IsSubsequence(r, xs)
  {
    if |xs| == 0 then []
    else
      assert xs == [xs[0]] + xs[1..];
      if p(xs[0]) then [xs[0]] + Filter(xs[1..], p) else Filter(xs[1..], p)
  }

  /** A filter that rejects nothing returns its input unchanged. */
  lemma {:induction false} FilterKeepsAll<T(!new)>(xs: seq<T>, p: T -> bool)
    requires forall i :: 0 <= i < |xs| ==> p(xs[i])
    ensures Filter(xs, p) == xs
  {
    if |xs| > 0 {
      FilterKeepsAll(xs[1..], p);
    }
  }

  /** Two tests that agree on every element filter alike. */
  lemma {:induction false} FilterAgreeing<T(!new)>(xs: seq<T>, p: T -> bool, q: T -> bool)
    requires forall i :: 0 <= i < |xs| ==> p(xs[i]) == q(xs[i])
    ensures Filter(xs, p) == Filter(xs, q)
  {
    if |xs| > 0 {
      FilterAgreeing(xs[1..], p, q);
    }
  }

  /** Filtering distributes over concatenation. */
  lemma {:induction false} FilterConcat<T(!new)>(a: seq<T>, b: seq<T>, p: T -> bool)
    ensures Filter(a + b, p) == Filter(a, p) + Filter(b, p)
  {
    if |a| == 0 {
      assert a + b == b;
    } else {
      assert (a + b)[1..] == a[1..] + b;
      FilterConcat(a[1..], b, p);
    }
  }

  /** Overwriting an element the filter rejects by another rejected element
      does not change the filtered list. */
  lemma {:induction false} FilterUpdateRejected<T(!new)>(xs: seq<T>, i: nat, y: T, p: T -> bool)
    requires i < |xs|
    requires !p(xs[i]) && !p(y)
    ensures Filter(xs[i := y], p) == Filter(xs, p)
  {
    if i > 0 {
      assert xs[i := y][1..] == xs[1..][i - 1 := y];
      FilterUpdateRejected(xs[1..], i - 1, y, p);
    } else {
      assert xs[i := y][1..] == xs[1..];
    }
  }

  /** Elements are partitioned by a test `p` and its negation `np`. */
  lemma {:induction false} FilterPartitionLength<T(!new)>(xs: seq<T>, p: T -> bool, np: T -> bool)
    requires forall x :: np(x) == !p(x)
    ensures |Filter(xs, p)| + |Filter(xs, np)| == |xs|
  {
    if |xs| > 0 {
      FilterPartitionLength(xs[1..], p, np);
    }
  }

  /** Some element carries the id `key`. */
  predicate HasId<T>(xs: seq<T>, id: T -> string, key: string)
  {
    exists i :: 0 <= i < |xs| && id(xs[i]) == key
  }

  /** No two elements share an id. */
  predicate UniqueIds<T>(xs: seq<T>, id: T -> string)
  {
    forall i, j :: 0 <= i < j < |xs| ==> id(xs[i]) != id(xs[j])
  }

  /** `Array.prototype.findIndex` on the id: the first position holding `key`, or -1. */
  function FindIndex<T>(xs: seq<T>, id: T -> string, key: string): (i: int)
    ensures -1 <= i < |xs|
    ensures i == -1 <==> !HasId(xs, id, key)
    ensures 0 <= i ==> id(xs[i]) == key && forall j :: 0 <= j < i ==> id(xs[j]) != key
  {
    if |xs| == 0 then -1
    else if id(xs[0]) == key then 0
    else
      var k := FindIndex(xs[1..], id, key);
      assert forall j :: 1 <= j < |xs| ==> xs[j] == xs[1..][j - 1];
      if k == -1 then -1 else k + 1
  }

  /** The elements whose id is not `key`, in order: `filter(x => x.id !== key)`. */
  function Without<T(==,!new)>(xs: seq<T>, id: T -> string, key: string): (r: seq<T>)
    ensures !HasId(r, id, key)
    ensures forall x :: x in r <==> x in xs && id(x) != key
    ensures forall x {:trigger multiset(r)[x]} :: multiset(r)[x] == if id(x) != key then multiset(xs)[x] else 0
    ensures IsSubsequence(r, xs)
  {
    var r := Filter(xs, x => id(x) != key);
    assert forall i :: 0 <= i < |r| ==> r[i] in r;
    r
  }

  /** Removing an id distributes over concatenation. */
  lemma WithoutConcat<T(!new)>(a: seq<T>, b: seq<T>, id: T -> string, key: string)
    ensures Without(a + b, id, key) == Without(a, id, key) + Without(b, id, key)
  {
    FilterConcat(a, b, x => id(x) != key);
  }

  /** Removing an id that is absent changes nothing. */
  lemma WithoutAbsent<T(!new)>(xs: seq<T>, id: T -> string, key: string)
    requires !HasId(xs, id, key)
    ensures Without(xs, id, key) == xs
  {
    FilterKeepsAll(xs, x => id(x) != key);
  }

  /** Removing an id from a list whose ids are unique keeps them unique. */
  lemma {:induction false} FilterKeepsUnique<T(!new)>(xs: seq<T>, id: T -> string, p: T -> bool)
    requires UniqueIds(xs, id)
    ensures UniqueIds(Filter(xs, p), id)
  {
    if |xs| > 0 {
      var rest := Filter(xs[1..], p);
      FilterKeepsUnique(xs[1..], id, p);
      if p(xs[0]) {
        forall y | y in rest
          ensures id(y) != id(xs[0])
        {
          var j :| 0 <= j < |xs[1..]| && xs[1..][j] == y;
          assert xs[j + 1] == y;
        }
        var r := [xs[0]] + rest;
        forall i, j | 0 <= i < j < |r|
          ensures id(r[i]) != id(r[j])
        {
          if i == 0 {
            assert r[j] in rest;
          } else {
            assert r[i] == rest[i - 1] && r[j] == rest[j - 1];
          }
        }
      }
    }
  }

  /** Removing an absent id changes nothing, and removal keeps ids unique. */
  lemma WithoutProperties<T(!new)>(xs: seq<T>, id: T -> string, key: string)
    ensures !HasId(xs, id, key) ==> Without(xs, id, key) == xs
    ensures UniqueIds(xs, id) ==> UniqueIds(Without(xs, id, key), id)
  {
    if !HasId(xs, id, key) {
      WithoutAbsent(xs, id, key);
    }
    if UniqueIds(xs, id) {
      FilterKeepsUnique(xs, id, x => id(x) != key);
    }
  }

  /** The replace-or-append step of `saveQuote`/`saveTemplate`: the first record
      with the same id is replaced in place, otherwise the record is appended. */
  function Upsert<T(==,!new)>(xs: seq<T>, x: T, id: T -> string): (r: seq<T>)
    ensures x in r
    ensures HasId(xs, id, id(x)) ==> |r| == |xs|
    ensures HasId(xs, id, id(x)) ==> var i := FindIndex(xs, id, id(x));
      r[i] == x && forall j :: 0 <= j < |xs| && j != i ==> r[j] == xs[j]
    ensures !HasId(xs, id, id(x)) ==> r == xs + [x]
    ensures Without(r, id, id(x)) == Without(xs, id, id(x))
    ensures UniqueIds(xs, id) ==> UniqueIds(r, id)
    ensures UniqueIds(xs, id) ==> forall y :: y in r && id(y) == id(x) ==> y == x
  {
    var i := FindIndex(xs, id, id(x));
    if i > -1 then
      FilterUpdateRejected(xs, i, x, y => id(y) != id(x));
      assert xs[i := x][i] == x;
      xs[i := x]
    else
      FilterConcat(xs, [x], y => id(y) != id(x));
      xs + [x]
  }

  /** `xs.map(y => y.id === id(x) ? x : y)`: every element with the id of `x`
      becomes `x`, every other element stays where it is. */
  function ReplaceById<T(==,!new)>(xs: seq<T>, x: T, id: T -> string): (r: seq<T>)
    ensures |r| == |xs|
    ensures forall i :: 0 <= i < |xs| && id(xs[i]) != id(x) ==> r[i] == xs[i]
    ensures forall i :: 0 <= i < |xs| && id(xs[i]) == id(x) ==> r[i] == x
    ensures Without(r, id, id(x)) == Without(xs, id, id(x))
    ensures !HasId(xs, id, id(x)) ==> r == xs
  {
    if |xs| == 0 then []
    else
      var head := if id(xs[0]) == id(x) then x else xs[0];
      var rest := ReplaceById(xs[1..], x, id);
      assert xs == [xs[0]] + xs[1..];
      WithoutConcat([head], rest, id, id(x));
      WithoutConcat([xs[0]], xs[1..], id, id(x));
      [head] + rest
  }

  /** Saving the same record twice has the effect of saving it once. */
  lemma UpsertIdempotent<T(!new)>(xs: seq<T>, x: T, id: T -> string)
    ensures Upsert(Upsert(xs, x, id), x, id) == Upsert(xs, x, id)
  {
    var r := Upsert(xs, x, id);
    var i := FindIndex(xs, id, id(x));
    var k := FindIndex(r, id, id(x));
    if i > -1 {
      assert r == xs[i := x];
      assert id(r[i]) == id(x);
    } else {
      assert r == xs + [x];
      assert id(r[|xs|]) == id(x);
    }
  }

  /** `reduce((acc, x) => acc + f(x), 0)`: the left-to-right sum of `f` over the list. */
  function Sum<T>(xs: seq<T>, f: T -> real): real
  {
    if |xs| == 0 then 0.0 else Sum(xs[..|xs| - 1], f) + f(xs[|xs| - 1])
  }

  /** Summing a concatenation sums its parts. */
  lemma {:induction false} SumConcat<T>(a: seq<T>, b: seq<T>, f: T -> real)
    ensures Sum(a + b, f) == Sum(a, f) + Sum(b, f)
  {
    if |b| == 0 {
      assert a + b == a;
    } else {
      assert (a + b)[..|a + b| - 1] == a + b[..|b| - 1];
      SumConcat(a, b[..|b| - 1], f);
    }
  }

  /** A sum of non-negative terms is non-negative. */
  lemma {:induction false} SumNonNegative<T>(xs: seq<T>, f: T -> real)
    requires forall i :: 0 <= i < |xs| ==> f(xs[i]) >= 0.0
    ensures Sum(xs, f) >= 0.0
  {
    if |xs| > 0 {
      SumNonNegative(xs[..|xs| - 1], f);
    }
  }

  /** The sum splits into the part over the elements a test `p` keeps and the
      part over those its negation `np` keeps. */
  lemma {:induction false} SumPartition<T(!new)>(xs: seq<T>, f: T -> real, p: T -> bool, np: T -> bool)
    requires forall x :: np(x) == !p(x)
    ensures Sum(xs, f) == Sum(Filter(xs, p), f) + Sum(Filter(xs, np), f)
  {
    if |xs| > 0 {
      assert xs == [xs[0]] + xs[1..];
      SumConcat([xs[0]], xs[1..], f);
      SumPartition(xs[1..], f, p, np);
      if p(xs[0]) {
        SumConcat([xs[0]], Filter(xs[1..], p), f);
      } else {
        SumConcat([xs[0]], Filter(xs[1..], np), f);
      }
    }
  }

  /** Ordered by `key`, largest first. */
  predicate Descending<T>(xs: seq<T>, key: T -> int)
  {
    forall i, j :: 0 <= i < j < |xs| ==> key(xs[i]) >= key(xs[j])
  }

  /** Insert `x` before the first element whose key is not larger than its own. */
  function InsertDescending<T(!new)>(x: T, sorted: seq<T>, key: T -> int): (r: seq<T>)
    requires Descending(sorted, key)
    ensures multiset(r) == multiset(sorted) + multiset{x}
    ensures |r| == |sorted| + 1
    ensures Descending(r, key)
    ensures |r| > 0 && (r[0] == x || (|sorted| > 0 && r[0] == sorted[0]))
  {
    if |sorted| == 0 || key(x) >= key(sorted[0]) then
      [x] + sorted
    else
      var rest := InsertDescending(x, sorted[1..], key);
      assert sorted == [sorted[0]] + sorted[1..];
      assert key(rest[0]) <= key(sorted[0]);
      [sorted[0]] + rest
  }

  /** A stable insertion sort, largest key first: an element inserted ahead of
      equal keys was ahead of them in the input. */
  function SortDescending<T(!new)>(xs: seq<T>, key: T -> int): (r: seq<T>)
    ensures multiset(r) == multiset(xs)
    ensures |r| == |xs|
    ensures Descending(r, key)
  {
    if |xs| == 0 then []
    else
      assert xs == [xs[0]] + xs[1..];
      InsertDescending(xs[0], SortDescending(xs[1..], key), key)
  }

  /** Cutting a descending list after `m` elements: the kept part is a
      sub-multiset, and no element cut off has a larger key than a kept one. */
  lemma PrefixOfDescending<T>(s: seq<T>, m: nat, key: T -> int)
    requires Descending(s, key) && m <= |s|
    ensures Descending(s[..m], key)
    ensures multiset(s[..m]) <= multiset(s)
    ensures forall y, k :: y in multiset(s) - multiset(s[..m]) && 0 <= k < m ==> key(s[k]) >= key(y)
  {
    var u, v := s[..m], s[m..];
    assert forall i, j :: 0 <= i < j < |u| ==> u[i] == s[i] && u[j] == s[j];
    assert s == u + v;
    assert multiset(s) == multiset(u) + multiset(v);
    forall y, k | y in multiset(s) - multiset(u) && 0 <= k < m
      ensures key(s[k]) >= key(y)
    {
      assert y in multiset(v);
      var j :| 0 <= j < |v| && v[j] == y;
      assert s[m + j] == y;
    }
  }

  /** The (at most) `n` elements with the largest keys, largest first, ties in
      input order: a stable descending sort cut after `n`. Nothing left out has a
      larger key than anything kept. */
  function Largest<T(!new)>(xs: seq<T>, key: T -> int, n: nat): (r: seq<T>)
    ensures |r| == if |xs| < n then |xs| else n
    ensures multiset(r) <= multiset(xs)
    ensures Descending(r, key)
    ensures forall y, k :: y in multiset(xs) - multiset(r) && 0 <= k < |r| ==> key(r[k]) >= key(y)
  {
    var sorted := SortDescending(xs, key);
    var m := if |xs| < n then |xs| else n;
    PrefixOfDescending(sorted, m, key);
    sorted[..m]
  }
}

=== FILE: create_quote.dfy ===
/** The quote editor (pages/CreateQuote.tsx): the initial quote, the item and
    pricing edits, each followed by the recalculation effect, the save guard,
    save-as-template and load-template. */
module CreateQuote {
  import opened Wrappers
  import opened Types
  import Collections
  import Text
  import Pricing
  import LineItems
  import Storage

  /** The quote with its items and cached totals blanked: what an item edit must leave alone. */
  function Header(q: Quote): Quote
  {
    q.(items := [], subtotal := 0.0, discountAmount := 0.0, taxAmount := 0.0, grandTotal := 0.0)
  }

  /** The editor's initial quote: a fresh id, a number from the creation
      timestamp and the stored quote count, the settings' tax and terms, no items
      and zero totals. `now` is the ISO timestamp, `validUntil` the date 30 days on. */
  function NewQuote(s: Storage.Store, freshId: string, now: string, validUntil: string): (q: Quote)
    requires Storage.WellTyped(s)
    ensures Pricing.Consistent(q)
    ensures q.id == freshId && q.items == [] && q.status == Draft
    ensures q.number == Text.QuoteNumber(now, |Storage.GetQuotes(s)|)
    ensures q.taxEnabled && q.taxRate == Storage.GetSettings(s).defaultTaxRate
    ensures q.terms == Storage.GetSettings(s).defaultTerms
    ensures q.date == Text.IsoDate(now) && q.validUntil == validUntil
    ensures q.globalDiscountType == Percentage && q.globalDiscountValue == 0.0
    ensures Pricing.CachedTotals(q) == Pricing.Totals(0.0, 0.0, 0.0, 0.0)
    ensures q.customer.name == "" && q.customer.email == ""
    ensures q.customer.company == Some("") && q.customer.phone == Some("") && q.customer.address == Some("")
    ensures q.salesRep == "John Doe" && q.internalNotes == ""
    ensures q.taxLabel == Storage.GetSettings(s).defaultTaxLabel
  {
    var settings := Storage.GetSettings(s);
    Quote(
      id := freshId,
      number := Text.QuoteNumber(now, |Storage.GetQuotes(s)|),
      date := Text.IsoDate(now),
      validUntil := validUntil,
      customer := Customer(name := "", company := Some(""), email := "", phone := Some(""), address := Some("")),
      salesRep := "John Doe",
      items := [],
      globalDiscountType := Percentage,
      globalDiscountValue := 0.0,
      taxRate := settings.defaultTaxRate,
      taxLabel := settings.defaultTaxLabel,
      taxEnabled := true,
      status := Draft,
      terms := settings.defaultTerms,
      internalNotes := "",
      subtotal := 0.0,
      discountAmount := 0.0,
      taxAmount := 0.0,
      grandTotal := 0.0)
  }

  /** `handleAddItem`: append one line for the product, then recalculate. */
  function AddItem(q: Quote, p: Product, freshId: string): (r: Quote)
    ensures Pricing.Consistent(r)
    ensures Header(r) == Header(q)
    ensures |r.items| == |q.items| + 1 && r.items[..|q.items|] == q.items
    ensures var it := r.items[|q.items|];
      && it.id == freshId && it.productId == Some(p.id) && it.name == p.name && it.price == p.price
      && it.description == Some(p.description) && it.notes.None?
      && it.quantity == 1.0 && it.discountType == Percentage && it.discountValue == 0.0
    ensures r.subtotal == Pricing.Subtotal(q.items) + p.price
  {
    var item := LineItems.FromProduct(p, freshId);
    LineItems.ProductItemNet(p, freshId);
    Pricing.SubtotalAppend(q.items, item);
    Pricing.Recalc(q.(items := q.items + [item]))
  }

  /** `handleAddCustomItem`: append a "Custom Service" line at price 0, then
      recalculate; the totals of a consistent quote do not move. */
  function AddCustomItem(q: Quote, freshId: string): (r: Quote)
    ensures Pricing.Consistent(r)
    ensures Header(r) == Header(q)
    ensures |r.items| == |q.items| + 1 && r.items[..|q.items|] == q.items
    ensures var it := r.items[|q.items|];
      && it.id == freshId && it.productId.None? && it.name == "Custom Service" && it.price == 0.0
      && it.description.None? && it.notes.None?
      && it.quantity == 1.0 && it.discountType == Percentage && it.discountValue == 0.0
    ensures Pricing.Consistent(q) ==> Pricing.CachedTotals(r) == Pricing.CachedTotals(q)
  {
    var item := LineItems.CustomItem(freshId);
    LineItems.CustomItemNet(freshId);
    Pricing.SubtotalAppend(q.items, item);
    Pricing.Recalc(q.(items := q.items + [item]))
  }

  /** `updateItem`: patch the items carrying the id, then recalculate. */
  function UpdateItem(q: Quote, key: string, u: LineItems.ItemPatch): (r: Quote)
    ensures Pricing.Consistent(r)
    ensures Header(r) == Header(q)
    ensures r.items == LineItems.UpdateById(q.items, key, u)
    ensures !Collections.HasId(q.items, ItemId, key) ==> r.items == q.items
  {
    LineItems.UpdateAbsent(q.items, key, u);
    Pricing.Recalc(q.(items := LineItems.UpdateById(q.items, key, u)))
  }

  /** `removeItem`: drop the items carrying the id, keep the rest in order, then recalculate. */
  function RemoveItem(q: Quote, key: string): (r: Quote)
    ensures Pricing.Consistent(r)
    ensures Header(r) == Header(q)
    ensures forall it :: it in r.items <==> it in q.items && it.id != key
    ensures forall it {:trigger multiset(r.items)[it]} :: multiset(r.items)[it] == if it.id != key then multiset(q.items)[it] else 0
    ensures Collections.IsSubsequence(r.items, q.items)
    ensures !Collections.HasId(q.items, ItemId, key) ==> r.items == q.items
  {
    Collections.WithoutProperties(q.items, ItemId, key);
    Pricing.Recalc(q.(items := LineItems.RemoveById(q.items, key)))
  }

  /** `handleLoadTemplate`: the items become copies of the template's items
      under fresh ids, then recalculate. */
  function LoadTemplate(q: Quote, t: QuoteTemplate, itemIds: seq<string>): (r: Quote)
    requires |itemIds| == |t.items|
    ensures Pricing.Consistent(r)
    ensures Header(r) == Header(q)
    ensures LineItems.SameButIds(r.items, t.items)
    ensures forall i :: 0 <= i < |r.items| ==> r.items[i].id == itemIds[i]
    ensures LineItems.Distinct(itemIds) ==> Collections.UniqueIds(r.items, ItemId)
    ensures r.subtotal == Pricing.Subtotal(t.items)
  {
    var items := LineItems.WithIds(t.items, itemIds);
    LineItems.SameButIdsSubtotal(items, t.items);
    Pricing.Recalc(q.(items := items))
  }

  /** One user action in the editor. */
  datatype Action =
    | AddProduct(product: Product, itemId: string)
    | AddCustom(itemId: string)
    | UpdateLine(key: string, patch: LineItems.ItemPatch)
    | RemoveLine(key: string)
    | UseTemplate(template: QuoteTemplate, itemIds: seq<string>)
    | SetCustomer(customer: Customer)
    | SetDiscountType(discountType: DiscountType)
    | SetDiscountValue(discountValue: real)
    | SetTaxEnabled(taxEnabled: bool)
    | SetTaxRate(taxRate: real)
    | SetStatus(status: QuoteStatus)
    | SetValidUntil(validUntil: string)
    | SetTerms(terms: string)
    | SetNotes(notes: string)

  /** The action carries one fresh id per item it copies. */
  predicate Applicable(a: Action)
  {
    a.UseTemplate? ==> |a.itemIds| == |a.template.items|
  }

  /** The editor state after one action and the recalculation that follows it. */
  function Step(q: Quote, a: Action): (r: Quote)
    requires Applicable(a)
    ensures Pricing.Consistent(r)
    ensures !(a.AddProduct? || a.AddCustom? || a.UpdateLine? || a.RemoveLine? || a.UseTemplate?) ==> r.items == q.items
    ensures a.SetCustomer? || a.SetStatus? || a.SetValidUntil? || a.SetTerms? || a.SetNotes? ==>
      Pricing.CachedTotals(r) == Pricing.DueTotals(q)
    ensures a.SetCustomer? ==> Header(r) == Header(q).(customer := a.customer)
    ensures a.SetDiscountType? ==> Header(r) == Header(q).(globalDiscountType := a.discountType)
    ensures a.SetDiscountValue? ==> Header(r) == Header(q).(globalDiscountValue := a.discountValue)
    ensures a.SetTaxEnabled? ==> Header(r) == Header(q).(taxEnabled := a.taxEnabled)
    ensures a.SetTaxRate? ==> Header(r) == Header(q).(taxRate := a.taxRate)
    ensures a.SetStatus? ==> Header(r) == Header(q).(status := a.status)
    ensures a.SetValidUntil? ==> Header(r) == Header(q).(validUntil := a.validUntil)
    ensures a.SetTerms? ==> Header(r) == Header(q).(terms := a.terms)
    ensures a.SetNotes? ==> Header(r) == Header(q).(internalNotes := a.notes)
  {
    match a
    case AddProduct(p, id) => AddItem(q, p, id)
    case AddCustom(id) => AddCustomItem(q, id)
    case UpdateLine(key, u) => UpdateItem(q, key, u)
    case RemoveLine(key) => RemoveItem(q, key)
    case UseTemplate(t, ids) => LoadTemplate(q, t, ids)
    case SetCustomer(c) => Pricing.Recalc(q.(customer := c))
    case SetDiscountType(d) => Pricing.Recalc(q.(globalDiscountType := d))
    case SetDiscountValue(v) => Pricing.Recalc(q.(globalDiscountValue := v))
    case SetTaxEnabled(b) => Pricing.Recalc(q.(taxEnabled := b))
    case SetTaxRate(rate) => Pricing.Recalc(q.(taxRate := rate))
    case SetStatus(st) => Pricing.Recalc(q.(status := st))
    case SetValidUntil(d) => Pricing.Recalc(q.(validUntil := d))
    case SetTerms(t) => Pricing.Recalc(q.(terms := t))
    case SetNotes(n) => Pricing.Recalc(q.(internalNotes := n))
  }

  /** The editor state after a sequence of actions. */
  function Run(q: Quote, actions: seq<Action>): Quote
    requires forall i :: 0 <= i < |actions| ==> Applicable(actions[i])
    decreases |actions|
  {
    if |actions| == 0 then q else Run(Step(q, actions[0]), actions[1..])
  }

  /** Starting from any consistent quote (a new one included), whatever the user
      does, the cached totals stay those the calculator gives for the current items, discount and tax. */
  lemma {:induction false} EditorStaysConsistent(q: Quote, actions: seq<Action>)
    requires Pricing.Consistent(q)
    requires forall i :: 0 <= i < |actions| ==> Applicable(actions[i])
    ensures Pricing.Consistent(Run(q, actions))
    decreases |actions|
  {
    if |actions| > 0 {
      var a := actions[0];
      var next := Step(q, a);
      EditorStaysConsistent(next, actions[1..]);
    }
  }

  /** `handleSave`: refused when the customer name or email is empty, otherwise the
      quote is saved (replacing the stored quote with its id, or appended). */
  function HandleSave(s: Storage.Store, q: Quote): (r: Result<Storage.Store, SaveError>)
    requires Storage.WellTyped(s)
    ensures r.Failure? <==> q.customer.name == "" || q.customer.email == ""
    ensures r.Failure? ==> r.error == MissingCustomerDetails
    ensures r.Success? ==> r.value == Storage.SaveQuote(s, q)
    ensures r.Success? ==> Storage.WellTyped(r.value) && q in Storage.GetQuotes(r.value)
    ensures r.Success? ==> Storage.OthersUnchanged(s, r.value, Storage.QuotesKey)
  {
    if q.customer.name == "" || q.customer.email == "" then Failure(MissingCustomerDetails)
    else Success(Storage.SaveQuote(s, q))
  }

  /** The template `handleSaveAsTemplate` builds from a quote. */
  function AsTemplate(q: Quote, name: string, freshId: string, itemIds: seq<string>): (t: QuoteTemplate)
    requires |itemIds| == |q.items|
    ensures t.id == freshId && t.name == name && t.description == "Template based on quote " + q.number
    ensures LineItems.SameButIds(t.items, q.items)
    ensures forall i :: 0 <= i < |t.items| ==> t.items[i].id == itemIds[i]
    ensures LineItems.Distinct(itemIds) ==> Collections.UniqueIds(t.items, ItemId)
    ensures Pricing.Subtotal(t.items) == Pricing.Subtotal(q.items)
  {
    var items := LineItems.WithIds(q.items, itemIds);
    LineItems.SameButIdsSubtotal(items, q.items);
    QuoteTemplate(freshId, name, "Template based on quote " + q.number, items)
  }

  /** `handleSaveAsTemplate`: `answer` is what the name prompt returned (None when
      cancelled). No name, or an empty one, saves nothing; otherwise a template
      with the quote's items under fresh ids is stored. */
  function HandleSaveAsTemplate(s: Storage.Store, q: Quote, answer: Option<string>, freshId: string, itemIds: seq<string>): (r: Storage.Store)
    requires Storage.WellTyped(s)
    requires |itemIds| == |q.items|
    ensures Storage.WellTyped(r)
    ensures answer.None? || answer.value == "" ==> r == s
    ensures answer.Some? && answer.value != "" ==>
      && AsTemplate(q, answer.value, freshId, itemIds) in Storage.GetTemplates(r)
      && Storage.OthersUnchanged(s, r, Storage.TemplatesKey)
    ensures answer.Some? && answer.value != "" && !Collections.HasId(Storage.GetTemplates(s), TemplateId, freshId) ==>
      Storage.GetTemplates(r) == Storage.GetTemplates(s) + [AsTemplate(q, answer.value, freshId, itemIds)]
  {
    if answer.None? || answer.value == "" then s
    else Storage.SaveTemplate(s, AsTemplate(q, answer.value, freshId, itemIds))
  }
}

=== FILE: dashboard.dfy ===
/** The dashboard figures (pages/Dashboard.tsx): total, active count, accepted
    value and average of the stored quotes, and the five most recent quotes. */
module Dashboard {
  import opened Types
  import Collections

  function GrandTotal(q: Quote): real
  {
    q.grandTotal
  }

  /** Sent and draft quotes are the active ones. */
  predicate IsActive(q: Quote)
  {
    q.status == Sent || q.status == Draft
  }

  predicate IsInactive(q: Quote)
  {
    !IsActive(q)
  }

  predicate IsAccepted(q: Quote)
  {
    q.status == Accepted
  }

  predicate IsNotAccepted(q: Quote)
  {
    !IsAccepted(q)
  }

  datatype Stats = Stats(totalValue: real, activeQuotes: nat, acceptedValue: real, avgQuote: real)

  /** `stats`: the sum of all grand totals, the number of active quotes, the sum
      over accepted quotes, and the mean grand total (0 when there are no quotes). */
  function DashboardStats(quotes: seq<Quote>): (st: Stats)
    ensures st.activeQuotes <= |quotes|
    ensures |quotes| == 0 ==> st == Stats(0.0, 0, 0.0, 0.0)
    ensures |quotes| > 0 ==> st.avgQuote * (|quotes| as real) == st.totalValue
  {
    var total := Collections.Sum(quotes, GrandTotal);
    Stats(
      total,
      |Collections.Filter(quotes, IsActive)|,
      Collections.Sum(Collections.Filter(quotes, IsAccepted), GrandTotal),
      if |quotes| > 0 then total / |quotes| as real else 0.0)
  }

  /** The figures as running totals: a further quote adds its grand total to the
      total value, counts once if it is sent or a draft, and adds its grand total to
      the accepted value if it is accepted. With the all-zero figures of the empty
      list this fixes every figure for every list. */
  lemma StatsAppend(quotes: seq<Quote>, q: Quote)
    ensures DashboardStats(quotes + [q]).totalValue == DashboardStats(quotes).totalValue + q.grandTotal
    ensures DashboardStats(quotes + [q]).activeQuotes
      == DashboardStats(quotes).activeQuotes + if IsActive(q) then 1 else 0
    ensures DashboardStats(quotes + [q]).acceptedValue
      == DashboardStats(quotes).acceptedValue + if IsAccepted(q) then q.grandTotal else 0.0
  {
    var all := quotes + [q];
    assert all[..|all| - 1] == quotes;
    Collections.FilterConcat(quotes, [q], IsActive);
    Collections.FilterConcat(quotes, [q], IsAccepted);
    var acc := Collections.Filter(quotes, IsAccepted);
    var last := Collections.Filter([q], IsAccepted);
    Collections.SumConcat(acc, last, GrandTotal);
    if IsAccepted(q) {
      assert last == [q];
      assert Collections.Sum(last, GrandTotal) == q.grandTotal by {
        assert last[..0] == [];
      }
    } else {
      assert last == [];
    }
  }

  /** The total splits into the accepted value and the sum over the other quotes. */
  lemma TotalSplitsOnAccepted(quotes: seq<Quote>)
    ensures DashboardStats(quotes).totalValue
      == DashboardStats(quotes).acceptedValue + Collections.Sum(Collections.Filter(quotes, IsNotAccepted), GrandTotal)
  {
    Collections.SumPartition(quotes, GrandTotal, IsAccepted, IsNotAccepted);
  }

  /** The active quotes and the others make up all quotes. */
  lemma ActiveCountSplits(quotes: seq<Quote>)
    ensures DashboardStats(quotes).activeQuotes + |Collections.Filter(quotes, IsInactive)| == |quotes|
  {
    Collections.FilterPartitionLength(quotes, IsActive, IsInactive);
  }

  /** With non-negative grand totals the accepted value lies between 0 and the total. */
  lemma AcceptedWithinTotal(quotes: seq<Quote>)
    requires forall i :: 0 <= i < |quotes| ==> quotes[i].grandTotal >= 0.0
    ensures 0.0 <= DashboardStats(quotes).acceptedValue <= DashboardStats(quotes).totalValue
  {
    TotalSplitsOnAccepted(quotes);
    var acc := Collections.Filter(quotes, IsAccepted);
    var rest := Collections.Filter(quotes, IsNotAccepted);
    NonNegativeTotals(quotes, acc);
    NonNegativeTotals(quotes, rest);
  }

  lemma NonNegativeTotals(quotes: seq<Quote>, part: seq<Quote>)
    requires forall i :: 0 <= i < |quotes| ==> quotes[i].grandTotal >= 0.0
    requires forall q :: q in part ==> q in quotes
    ensures Collections.Sum(part, GrandTotal) >= 0.0
  {
    forall i | 0 <= i < |part|
      ensures GrandTotal(part[i]) >= 0.0
    {
      assert part[i] in quotes;
    }
    Collections.SumNonNegative(part, GrandTotal);
  }

  /** The sort key of a quote: the timestamp its date parses to. */
  function DateKey(time: string -> int): Quote -> int
  {
    (q: Quote) => time(q.date)
  }

  /** The facts `Largest` states about the key `DateKey(time)`, read as facts about the dates. */
  lemma DateKeyFacts(quotes: seq<Quote>, r: seq<Quote>, time: string -> int)
    requires multiset(r) <= multiset(quotes)
    requires Collections.Descending(r, DateKey(time))
    requires forall y, k :: y in multiset(quotes) - multiset(r) && 0 <= k < |r| ==> DateKey(time)(r[k]) >= DateKey(time)(y)
    ensures forall q :: q in r ==> q in quotes
    ensures forall i, j :: 0 <= i < j < |r| ==> time(r[i].date) >= time(r[j].date)
    ensures forall q, k :: q in multiset(quotes) - multiset(r) && 0 <= k < |r| ==> time(r[k].date) >= time(q.date)
  {
    forall q | q in r
      ensures q in quotes
    {
      assert q in multiset(r);
    }
  }

  /** `recentQuotes`: `[...quotes].sort((a, b) => time(b.date) - time(a.date)).slice(0, 5)`,
      a stable sort newest first, then the first five. They are stored quotes, as many
      as there are up to five, newest first, and no quote left out is newer than any
      quote shown. */
  function RecentQuotes(quotes: seq<Quote>, time: string -> int): (r: seq<Quote>)
    ensures |r| == if |quotes| < 5 then |quotes| else 5
    ensures multiset(r) <= multiset(quotes)
    ensures forall q :: q in r ==> q in quotes
    ensures forall i, j :: 0 <= i < j < |r| ==> time(r[i].date) >= time(r[j].date)
    ensures forall q, k :: q in multiset(quotes) - multiset(r) && 0 <= k < |r| ==> time(r[k].date) >= time(q.date)
  {
    var r := Collections.Largest(quotes, DateKey(time), 5);
    DateKeyFacts(quotes, r, time);
    r
  }
}

=== FILE: line_items.dfy ===
/** Line-item editing shared by the quote editor (pages/CreateQuote.tsx) and
    the template editor (pages/Templates.tsx): new items from a catalog product
    or as a custom row, update and removal by id, and copying items under fresh ids. */
module LineItems {
  import opened Wrappers
  import opened Types
  import Collections
  import Pricing

  /** A new line for a catalog product: a snapshot of its name, description and
      price, quantity 1 and a 0% discount, under the fresh id supplied. */
  function FromProduct(p: Product, freshId: string): (it: LineItem)
    ensures it.id == freshId && it.productId == Some(p.id) && it.notes.None?
    ensures it.name == p.name && it.description == Some(p.description) && it.price == p.price
    ensures it.quantity == 1.0 && it.discountType == Percentage && it.discountValue == 0.0
    ensures Pricing.LineNet(it) == p.price
  {
    LineItem(
      id := freshId,
      productId := Some(p.id),
      name := p.name,
      description := Some(p.description),
      quantity := 1.0,
      price := p.price,
      discountType := Percentage,
      discountValue := 0.0,
      notes := None)
  }

  /** A new free-form line: "Custom Service" at price 0, quantity 1, 0% discount. */
  function CustomItem(freshId: string): (it: LineItem)
    ensures it.id == freshId && it.productId.None? && it.description.None? && it.notes.None?
    ensures it.name == "Custom Service" && it.price == 0.0
    ensures it.quantity == 1.0 && it.discountType == Percentage && it.discountValue == 0.0
    ensures Pricing.LineNet(it) == 0.0
  {
    LineItem(
      id := freshId,
      productId := None,
      name := "Custom Service",
      description := None,
      quantity := 1.0,
      price := 0.0,
      discountType := Percentage,
      discountValue := 0.0,
      notes := None)
  }

  /** A new product line is worth the product's price. */
  lemma ProductItemNet(p: Product, freshId: string)
    ensures Pricing.LineNet(FromProduct(p, freshId)) == p.price
  {
  }

  /** A new custom line is worth nothing. */
  lemma CustomItemNet(freshId: string)
    ensures Pricing.LineNet(CustomItem(freshId)) == 0.0
  {
  }

  /** A `Partial<LineItem>`: the fields present override the item's, the absent ones keep it. */
  datatype ItemPatch = ItemPatch(
    id: Option<string>,
    productId: Option<string>,
    name: Option<string>,
    description: Option<string>,
    quantity: Option<real>,
    price: Option<real>,
    discountType: Option<DiscountType>,
    discountValue: Option<real>,
    notes: Option<string>)

  function Or<T>(o: Option<T>, d: T): T
  {
    if o.Some? then o.value else d
  }

  /** The patch with no field present. */
  const NoChange := ItemPatch(None, None, None, None, None, None, None, None, None)

  /** `{ ...item, ...updates }`: each field the patch carries overrides the
      item's, each field it lacks keeps the item's; so the empty patch keeps
      the item. */
  function Patch(it: LineItem, u: ItemPatch): (r: LineItem)
    ensures u == NoChange ==> r == it
    ensures r.id == (if u.id.Some? then u.id.value else it.id)
    ensures r.productId == (if u.productId.Some? then u.productId else it.productId)
    ensures r.name == (if u.name.Some? then u.name.value else it.name)
    ensures r.description == (if u.description.Some? then u.description else it.description)
    ensures r.quantity == (if u.quantity.Some? then u.quantity.value else it.quantity)
    ensures r.price == (if u.price.Some? then u.price.value else it.price)
    ensures r.discountType == (if u.discountType.Some? then u.discountType.value else it.discountType)
    ensures r.discountValue == (if u.discountValue.Some? then u.discountValue.value else it.discountValue)
    ensures r.notes == (if u.notes.Some? then u.notes else it.notes)
  {
    LineItem(
      id := Or(u.id, it.id),
      productId := if u.productId.Some? then u.productId else it.productId,
      name := Or(u.name, it.name),
      description := if u.description.Some? then u.description else it.description,
      quantity := Or(u.quantity, it.quantity),
      price := Or(u.price, it.price),
      discountType := Or(u.discountType, it.discountType),
      discountValue := Or(u.discountValue, it.discountValue),
      notes := if u.notes.Some? then u.notes else it.notes)
  }

  /** Applying a patch twice is applying it once, and patching an item with its
      own fields gives the item back. */
  lemma PatchTwice(it: LineItem, u: ItemPatch)
    ensures Patch(Patch(it, u), u) == Patch(it, u)
    ensures Patch(it, ItemPatch(Some(it.id), it.productId, Some(it.name), it.description, Some(it.quantity),
                                Some(it.price), Some(it.discountType), Some(it.discountValue), it.notes)) == it
  {
  }

  /** `items.map(item => item.id === key ? { ...item, ...u } : item)`: every item
      carrying `key` is patched, every other item is kept, in place. */
  function UpdateById(items: seq<LineItem>, key: string, u: ItemPatch): (r: seq<LineItem>)
    ensures |r| == |items|
    ensures forall i :: 0 <= i < |items| && items[i].id != key ==> r[i] == items[i]
    ensures forall i :: 0 <= i < |items| && items[i].id == key ==> r[i] == Patch(items[i], u)
  {
    if |items| == 0 then []
    else [if items[0].id == key then Patch(items[0], u) else items[0]] + UpdateById(items[1..], key, u)
  }

  /** Updating an id that no item carries changes nothing. */
  lemma UpdateAbsent(items: seq<LineItem>, key: string, u: ItemPatch)
    ensures !Collections.HasId(items, ItemId, key) ==> UpdateById(items, key, u) == items
  {
    if !Collections.HasId(items, ItemId, key) {
      var r := UpdateById(items, key, u);
      forall i | 0 <= i < |items|
        ensures r[i] == items[i]
      {
        assert ItemId(items[i]) != key;
      }
    }
  }

  /** An update that keeps ids leaves the items with other ids exactly as they
      were, in the same order, and applying it twice is applying it once. */
  lemma UpdateFrames(items: seq<LineItem>, key: string, u: ItemPatch)
    requires u.id.None?
    ensures Collections.Without(UpdateById(items, key, u), ItemId, key) == Collections.Without(items, ItemId, key)
    ensures UpdateById(UpdateById(items, key, u), key, u) == UpdateById(items, key, u)
  {
    UpdateFramesInduct(items, key, u);
  }

  lemma {:induction false} UpdateFramesInduct(items: seq<LineItem>, key: string, u: ItemPatch)
    requires u.id.None?
    ensures Collections.Without(UpdateById(items, key, u), ItemId, key) == Collections.Without(items, ItemId, key)
  {
    if |items| > 0 {
      var r := UpdateById(items, key, u);
      assert r[1..] == UpdateById(items[1..], key, u);
      UpdateFramesInduct(items[1..], key, u);
    }
  }

  /** `items.filter(item => item.id !== key)`. */
  function RemoveById(items: seq<LineItem>, key: string): (r: seq<LineItem>)
    ensures !Collections.HasId(r, ItemId, key)
    ensures forall it :: it in r <==> it in items && it.id != key
    ensures forall it {:trigger multiset(r)[it]} :: multiset(r)[it] == if it.id != key then multiset(items)[it] else 0
    ensures Collections.IsSubsequence(r, items)
  {
    Collections.Without(items, ItemId, key)
  }

  /** The items equal `src` in every field but the id, position by position. */
  predicate SameButIds(items: seq<LineItem>, src: seq<LineItem>)
  {
    |items| == |src| && forall i :: 0 <= i < |src| ==> items[i].(id := src[i].id) == src[i]
  }

  predicate Distinct(ids: seq<string>)
  {
    forall i, j :: 0 <= i < j < |ids| ==> ids[i] != ids[j]
  }

  /** `items.map(it => ({ ...it, id: crypto.randomUUID() }))`, the new ids supplied by the caller. */
  function WithIds(items: seq<LineItem>, ids: seq<string>): (r: seq<LineItem>)
    requires |ids| == |items|
    ensures SameButIds(r, items)
    ensures forall i :: 0 <= i < |r| ==> r[i].id == ids[i]
    ensures Distinct(ids) ==> Collections.UniqueIds(r, ItemId)
  {
    seq(|items|, i requires 0 <= i < |items| => items[i].(id := ids[i]))
  }

  /** Copying items under new ids does not change their subtotal. */
  lemma {:induction false} SameButIdsSubtotal(items: seq<LineItem>, src: seq<LineItem>)
    requires SameButIds(items, src)
    ensures Pricing.Subtotal(items) == Pricing.Subtotal(src)
  {
    if |src| > 0 {
      var n := |src| - 1;
      assert Pricing.LineNet(items[n]) == Pricing.LineNet(src[n]) by {
        assert items[n].(id := src[n].id) == src[n];
      }
      assert SameButIds(items[..n], src[..n]) by {
        forall i | 0 <= i < n
          ensures items[..n][i].(id := src[..n][i].id) == src[..n][i]
        {
          assert items[..n][i] == items[i] && src[..n][i] == src[i];
        }
      }
      SameButIdsSubtotal(items[..n], src[..n]);
    }
  }
}

=== FILE: pricing.dfy ===
/** The quote pricing calculator (pages/CreateQuote.tsx, the `calculations`
    memo) and the recalculation that keeps a quote's cached totals in step with
    its items, discount and tax settings. Arithmetic is exact. */
module Pricing {
  import opened Types
  import Collections

  /** The net of one line: price times quantity less the line's own discount,
      which is a percentage of that gross amount or a fixed amount. Nothing is
      clamped, so the net may be negative. */
  function LineNet(item: LineItem): (n: real)
    ensures item.discountType == Percentage ==> n == item.price * item.quantity * (100.0 - item.discountValue) / 100.0
    ensures item.discountType == Fixed ==> n + item.discountValue == item.price * item.quantity
  {
    var gross := item.price * item.quantity;
    var discount := if item.discountType == Percentage then gross * item.discountValue / 100.0 else item.discountValue;
    gross - discount
  }

  /** The subtotal: the line nets summed left to right from 0. */
  function Subtotal(items: seq<LineItem>): real
  {
    Collections.Sum(items, LineNet)
  }

  /** The four figures the calculator produces. */
  datatype Totals = Totals(subtotal: real, discountAmount: real, taxAmount: real, grandTotal: real)

  /** The calculator, over exactly the inputs it depends on: the items, the
      global discount, the tax rate and the tax toggle. */
  function Calculate(items: seq<LineItem>, globalDiscountType: DiscountType, globalDiscountValue: real,
                     taxRate: real, taxEnabled: bool): (t: Totals)
    ensures t.subtotal == Subtotal(items)
    ensures globalDiscountType == Percentage ==> t.discountAmount == t.subtotal * globalDiscountValue / 100.0
    ensures globalDiscountType == Fixed ==> t.discountAmount == globalDiscountValue
    ensures !taxEnabled ==> t.taxAmount == 0.0
    ensures taxEnabled ==> t.taxAmount == (t.subtotal - t.discountAmount) * taxRate / 100.0
    ensures t.grandTotal == (t.subtotal - t.discountAmount) + t.taxAmount
  {
    var subtotal := Subtotal(items);
    var globalDiscount := if globalDiscountType == Percentage then subtotal * globalDiscountValue / 100.0 else globalDiscountValue;
    var taxableAmount := subtotal - globalDiscount;
    var taxAmount := if taxEnabled then taxableAmount * taxRate / 100.0 else 0.0;
    Totals(subtotal, globalDiscount, taxAmount, taxableAmount + taxAmount)
  }

  /** The totals cached on a quote. */
  function CachedTotals(q: Quote): Totals
  {
    Totals(q.subtotal, q.discountAmount, q.taxAmount, q.grandTotal)
  }

  /** The totals a quote's own items, discount and tax settings call for. */
  function DueTotals(q: Quote): Totals
  {
    Calculate(q.items, q.globalDiscountType, q.globalDiscountValue, q.taxRate, q.taxEnabled)
  }

  /** The cached totals are the ones the calculator gives for the quote's inputs. */
  predicate Consistent(q: Quote)
  {
    CachedTotals(q) == DueTotals(q)
  }

  /** The recalculation effect: overwrite the four cached totals with the
      calculator's result and leave every other field as it was. */
  function Recalc(q: Quote): (r: Quote)
    ensures Consistent(r)
    ensures r.(subtotal := q.subtotal, discountAmount := q.discountAmount, taxAmount := q.taxAmount, grandTotal := q.grandTotal) == q
    ensures Consistent(q) ==> r == q
  {
    var t := DueTotals(q);
    q.(subtotal := t.subtotal, discountAmount := t.discountAmount, taxAmount := t.taxAmount, grandTotal := t.grandTotal)
  }

  /** Recalculating twice is recalculating once, and a quote is consistent
      exactly when recalculation leaves it unchanged. */
  lemma RecalcIdempotent(q: Quote)
    ensures Recalc(Recalc(q)) == Recalc(q)
    ensures Consistent(q) <==> Recalc(q) == q
  {
  }

  /** Closed forms of the grand total: the taxable amount scaled by (100 + rate)/100
      when tax is on, and with a percentage global discount the subtotal scaled by
      (100 - value)/100 before that. */
  lemma GrandTotalClosedForm(items: seq<LineItem>, gType: DiscountType, gValue: real, taxRate: real, taxEnabled: bool)
    ensures var t := Calculate(items, gType, gValue, taxRate, taxEnabled);
      && (taxEnabled ==> t.grandTotal == (t.subtotal - t.discountAmount) * (100.0 + taxRate) / 100.0)
      && (!taxEnabled ==> t.grandTotal == t.subtotal - t.discountAmount)
      && (gType == Percentage ==> t.subtotal - t.discountAmount == t.subtotal * (100.0 - gValue) / 100.0)
  {
  }

  /** A percentage discount of v leaves (100 - v)% of the gross; 0% leaves the line at
      its gross and 100% brings it to 0. A fixed discount may exceed the gross. */
  lemma LineNetPercentage(item: LineItem)
    requires item.discountType == Percentage
    ensures LineNet(item) == item.price * item.quantity * (100.0 - item.discountValue) / 100.0
    ensures item.discountValue == 0.0 ==> LineNet(item) == item.price * item.quantity
    ensures item.discountValue == 100.0 ==> LineNet(item) == 0.0
  {
  }

  /** With a non-negative gross and a percentage between 0 and 100 the net lies
      between 0 and the gross. */
  lemma LineNetBounds(item: LineItem)
    requires item.price >= 0.0 && item.quantity >= 0.0
    requires item.discountType == Percentage && 0.0 <= item.discountValue <= 100.0
    ensures 0.0 <= LineNet(item) <= item.price * item.quantity
  {
    var g := item.price * item.quantity;
    assert g >= 0.0 by {
      MulNonNegative(item.price, item.quantity);
    }
    LineNetPercentage(item);
    MulNonNegative(g, 100.0 - item.discountValue);
    MulNonNegative(g, item.discountValue);
    assert g * (100.0 - item.discountValue) == 100.0 * g - g * item.discountValue;
  }

  lemma MulNonNegative(a: real, b: real)
    requires a >= 0.0 && b >= 0.0
    ensures a * b >= 0.0
  {
  }

  /** No clamp: a fixed discount larger than the gross gives a negative net. */
  lemma NegativeLineNet(item: LineItem)
    requires item.discountType == Fixed
    requires item.discountValue > item.price * item.quantity
    ensures LineNet(item) < 0.0
  {
  }

  /** The subtotal of no items is 0, and appending an item adds its net. */
  lemma SubtotalAppend(items: seq<LineItem>, item: LineItem)
    ensures Subtotal([]) == 0.0
    ensures Subtotal(items + [item]) == Subtotal(items) + LineNet(item)
  {
    assert (items + [item])[..|items|] == items;
  }

  /** The right-to-left sum of the line nets, an independent reference for the subtotal. */
  function NetSum(items: seq<LineItem>): real
  {
    if |items| == 0 then 0.0 else LineNet(items[0]) + NetSum(items[1..])
  }

  /** Summing from the left (as `reduce` does) and from the right agree, so the
      subtotal does not depend on the order the nets are added in. */
  lemma {:induction false} SubtotalIsNetSum(items: seq<LineItem>)
    ensures Subtotal(items) == NetSum(items)
  {
    if |items| > 0 {
      SubtotalIsNetSum(items[1..]);
      assert items == [items[0]] + items[1..];
      Collections.SumConcat([items[0]], items[1..], LineNet);
      assert [items[0]][..0] == [];
    }
  }

  /** The worked example: one line at 100 x 2 with 10% off, a fixed global discount
      of 5 and 10% tax give subtotal 180, discount 5, tax 17.5 and total 192.5. */
  lemma WorkedExample(item: LineItem)
    requires item.price == 100.0 && item.quantity == 2.0
    requires item.discountType == Percentage && item.discountValue == 10.0
    ensures Calculate([item], Fixed, 5.0, 10.0, true) == Totals(180.0, 5.0, 17.5, 192.5)
  {
    assert LineNet(item) == 180.0;
    SubtotalAppend([], item);
    assert [] + [item] == [item];
    assert Subtotal([item]) == 180.0;
  }
}

=== FILE: products_page.dfy ===
/** The product catalog page (pages/Products.tsx): create or edit from the
    form, delete with confirmation, search; plus the picker filter the quote
    and template editors show when adding a product. */
module ProductsPage {
  import opened Wrappers
  import opened Types
  import Collections
  import Text
  import Storage

  /** The values read from the product form; the price is already a number and
      the "active" box is ticked or not. */
  datatype ProductForm = ProductForm(
    name: string,
    description: string,
    price: real,
    sku: string,
    category: string,
    unit: string,
    active: bool)

  /** The product `handleSave` builds: `editingProduct?.id || crypto.randomUUID()`
      keeps the edited product's id unless that id is the empty string. */
  function FormProduct(editing: Option<Product>, form: ProductForm, freshId: string): (p: Product)
    ensures editing.Some? && editing.value.id != "" ==> p.id == editing.value.id
    ensures editing.None? ==> p.id == freshId
    ensures editing.Some? && editing.value.id == "" ==> p.id == freshId
    ensures p.name == form.name && p.sku == form.sku && p.price == form.price && p.active == form.active
    ensures p.description == form.description && p.category == form.category && p.unit == form.unit
    ensures p.imageUrl.None?
  {
    Product(
      id := if editing.Some? && editing.value.id != "" then editing.value.id else freshId,
      name := form.name,
      description := form.description,
      price := form.price,
      sku := form.sku,
      category := form.category,
      unit := form.unit,
      imageUrl := None,
      active := form.active)
  }

  /** `handleSave`: an edit replaces the product with the same id in place; a new
      product is appended. The result is saved as the whole catalog. */
  function HandleSave(s: Storage.Store, products: seq<Product>, editing: Option<Product>, form: ProductForm, freshId: string): (r: (Storage.Store, seq<Product>))
    requires Storage.WellTyped(s)
    ensures Storage.WellTyped(r.0) && Storage.GetProducts(r.0) == (r.0, r.1)
    ensures Storage.OthersUnchanged(s, r.0, Storage.ProductsKey)
    ensures editing.Some? ==> r.1 == Collections.ReplaceById(products, FormProduct(editing, form, freshId), ProductId)
    ensures editing.Some? ==> |r.1| == |products|
    ensures editing.Some? ==> Collections.Without(r.1, ProductId, FormProduct(editing, form, freshId).id)
                              == Collections.Without(products, ProductId, FormProduct(editing, form, freshId).id)
    ensures editing.Some? && Collections.HasId(products, ProductId, editing.value.id) && editing.value.id != "" ==>
      FormProduct(editing, form, freshId) in r.1
    ensures editing.None? ==> r.1 == products + [FormProduct(editing, form, freshId)]
  {
    var product := FormProduct(editing, form, freshId);
    var updated := if editing.Some? then Collections.ReplaceById(products, product, ProductId) else products + [product];
    assert editing.Some? && Collections.HasId(products, ProductId, editing.value.id) && editing.value.id != "" ==> product in updated by {
      if editing.Some? && Collections.HasId(products, ProductId, editing.value.id) && editing.value.id != "" {
        var i :| 0 <= i < |products| && ProductId(products[i]) == editing.value.id;
        assert updated[i] == product;
      }
    }
    (Storage.SaveProducts(s, updated), updated)
  }

  /** `handleDelete`: with the user's confirmation every product with the id is
      removed, the rest kept in order, and the catalog saved; declined, nothing changes. */
  function HandleDelete(s: Storage.Store, products: seq<Product>, id: string, confirmed: bool): (r: (Storage.Store, seq<Product>))
    requires Storage.WellTyped(s)
    ensures Storage.WellTyped(r.0)
    ensures !confirmed ==> r == (s, products)
    ensures confirmed ==> r.0 == Storage.SaveProducts(s, r.1) && Storage.GetProducts(r.0) == (r.0, r.1)
    ensures confirmed ==> Storage.OthersUnchanged(s, r.0, Storage.ProductsKey)
    ensures confirmed ==> !Collections.HasId(r.1, ProductId, id)
    ensures confirmed ==> forall p :: p in r.1 <==> p in products && p.id != id
    ensures confirmed ==> forall p {:trigger multiset(r.1)[p]} :: multiset(r.1)[p] == if p.id != id then multiset(products)[p] else 0
    ensures confirmed ==> Collections.IsSubsequence(r.1, products)
  {
    if confirmed then
      var updated := Collections.Without(products, ProductId, id);
      (Storage.SaveProducts(s, updated), updated)
    else
      (s, products)
  }

  /** The catalog search test: the term occurs, ignoring case, in the name or the SKU. */
  predicate MatchesSearch(p: Product, term: string)
  {
    Text.Matches(p.name, term) || Text.Matches(p.sku, term)
  }

  /** `filteredProducts`: the products passing the search, in catalog order. */
  function FilteredProducts(products: seq<Product>, term: string): (r: seq<Product>)
    ensures forall p :: p in r <==> p in products && MatchesSearch(p, term)
    ensures forall p {:trigger multiset(r)[p]} :: multiset(r)[p] == if MatchesSearch(p, term) then multiset(products)[p] else 0
    ensures Collections.IsSubsequence(r, products)
  {
    Collections.Filter(products, p => MatchesSearch(p, term))
  }

  /** An empty search shows the whole catalog. */
  lemma ShowAll(products: seq<Product>)
    ensures FilteredProducts(products, "") == products
  {
    forall i | 0 <= i < |products|
      ensures MatchesSearch(products[i], "")
    {
      Text.MatchesProperties(products[i].name, "");
    }
    Collections.FilterKeepsAll(products, p => MatchesSearch(p, ""));
  }

  /** The product picker of the quote and template editors: active products whose
      name contains the term, ignoring case, in catalog order. */
  function PickerProducts(products: seq<Product>, term: string): (r: seq<Product>)
    ensures forall p :: p in r <==> p in products && p.active && Text.Matches(p.name, term)
    ensures forall p {:trigger multiset(r)[p]} :: multiset(r)[p] == if p.active && Text.Matches(p.name, term) then multiset(products)[p] else 0
    ensures Collections.IsSubsequence(r, products)
  {
    Collections.Filter(products, (p: Product) => p.active && Text.Matches(p.name, term))
  }
}

=== FILE: quotes_page.dfy ===
/** The quote list (pages/Quotes.tsx): search and status filtering, duplication
    and confirmation-gated deletion. */
module QuotesPage {
  import opened Types
  import Collections
  import Text
  import Pricing
  import Storage

  /** The search box: the term occurs, ignoring case, in the customer name or the
      quote number; an empty term matches every quote. */
  function MatchesSearch(q: Quote, term: string): (b: bool)
    ensures b <==>
      || (exists i :: Text.OccursAt(Text.ToLower(q.customer.name), Text.ToLower(term), i))
      || (exists i :: Text.OccursAt(Text.ToLower(q.number), Text.ToLower(term), i))
    ensures term == "" ==> b
  {
    Text.MatchesProperties(q.customer.name, term);
    Text.Matches(q.customer.name, term) || Text.Matches(q.number, term)
  }

  /** The status drop-down: "All" passes every quote; a status's string value
      passes exactly the quotes with that status. */
  function MatchesStatus(q: Quote, statusFilter: string): (b: bool)
    ensures statusFilter == "All" ==> b
    ensures forall st :: statusFilter == StatusName(st) ==> (b <==> q.status == st)
  {
    statusFilter == "All" || StatusName(q.status) == statusFilter
  }

  /** `filteredQuotes`: the quotes passing both tests, in stored order. */
  function FilteredQuotes(quotes: seq<Quote>, term: string, statusFilter: string): (r: seq<Quote>)
    ensures forall q :: q in r <==> q in quotes && MatchesSearch(q, term) && MatchesStatus(q, statusFilter)
    ensures forall q {:trigger multiset(r)[q]} ::
      multiset(r)[q] == if MatchesSearch(q, term) && MatchesStatus(q, statusFilter) then multiset(quotes)[q] else 0
    ensures Collections.IsSubsequence(r, quotes)
  {
    Collections.Filter(quotes, q => MatchesSearch(q, term) && MatchesStatus(q, statusFilter))
  }

  /** An empty search with "All" shows every quote. */
  lemma ShowAll(quotes: seq<Quote>)
    ensures FilteredQuotes(quotes, "", "All") == quotes
  {
    forall i | 0 <= i < |quotes|
      ensures MatchesSearch(quotes[i], "")
    {
      Text.MatchesProperties(quotes[i].customer.name, "");
    }
    Collections.FilterKeepsAll(quotes, q => MatchesSearch(q, "") && MatchesStatus(q, "All"));
  }

  /** Filtering on a status (with an empty search) shows exactly the quotes with that status. */
  lemma StatusFilterExact(quotes: seq<Quote>, status: QuoteStatus)
    ensures forall q :: q in FilteredQuotes(quotes, "", StatusName(status)) <==> q in quotes && q.status == status
  {
    forall q | q in quotes
      ensures MatchesSearch(q, "") && (MatchesStatus(q, StatusName(status)) <==> q.status == status)
    {
      Text.MatchesProperties(q.customer.name, "");
      StatusNameInjective(q.status, status);
    }
  }

  /** The search ignores the case of the term. */
  lemma SearchIgnoresCase(quotes: seq<Quote>, term: string, statusFilter: string)
    ensures FilteredQuotes(quotes, Text.ToLower(term), statusFilter) == FilteredQuotes(quotes, term, statusFilter)
  {
    forall i | 0 <= i < |quotes|
      ensures MatchesSearch(quotes[i], Text.ToLower(term)) == MatchesSearch(quotes[i], term)
    {
      Text.MatchesProperties(quotes[i].customer.name, term);
      Text.MatchesProperties(quotes[i].number, term);
    }
    Collections.FilterAgreeing(quotes,
      q => MatchesSearch(q, Text.ToLower(term)) && MatchesStatus(q, statusFilter),
      q => MatchesSearch(q, term) && MatchesStatus(q, statusFilter));
  }

  /** The copy `handleDuplicate` makes: a fresh id, a new number and date, status
      Draft, and every other field (customer, items, discounts, tax, totals, terms,
      notes) as in the original. */
  function Duplicate(q: Quote, freshId: string, number: string, date: string): (r: Quote)
    ensures r.id == freshId && r.number == number && r.date == date && r.status == Draft
    ensures r.(id := q.id, number := q.number, date := q.date, status := q.status) == q
    ensures Pricing.Consistent(q) ==> Pricing.Consistent(r)
  {
    q.(id := freshId, number := number, date := date, status := Draft)
  }

  /** `handleDuplicate`: the copy is numbered from `now` and the length of the
      page's whole loaded quote list (not the filtered one), saved, and the list
      reloaded from storage. */
  function HandleDuplicate(s: Storage.Store, loaded: seq<Quote>, q: Quote, freshId: string, now: string): (r: (Storage.Store, seq<Quote>))
    requires Storage.WellTyped(s)
    ensures Storage.WellTyped(r.0) && r.1 == Storage.GetQuotes(r.0)
    ensures Storage.OthersUnchanged(s, r.0, Storage.QuotesKey)
    ensures Duplicate(q, freshId, Text.QuoteNumber(now, |loaded|), Text.IsoDate(now)) in r.1
    ensures !Collections.HasId(Storage.GetQuotes(s), QuoteId, freshId) ==>
      && |r.1| == |Storage.GetQuotes(s)| + 1
      && r.1[..|Storage.GetQuotes(s)|] == Storage.GetQuotes(s)
  {
    var copy := Duplicate(q, freshId, Text.QuoteNumber(now, |loaded|), Text.IsoDate(now));
    var s' := Storage.SaveQuote(s, copy);
    (s', Storage.GetQuotes(s'))
  }

  /** `handleDelete`: with the user's confirmation the quote is deleted and the
      list re-read from storage; declined, neither storage nor the page's loaded
      list changes. */
  function HandleDelete(s: Storage.Store, loaded: seq<Quote>, id: string, confirmed: bool): (r: (Storage.Store, seq<Quote>))
    requires Storage.WellTyped(s)
    ensures Storage.WellTyped(r.0)
    ensures !confirmed ==> r == (s, loaded)
    ensures confirmed ==> r.0 == Storage.DeleteQuote(s, id) && r.1 == Storage.GetQuotes(r.0)
    ensures confirmed ==> Storage.OthersUnchanged(s, r.0, Storage.QuotesKey)
    ensures confirmed ==> Collections.IsSubsequence(r.1, Storage.GetQuotes(s))
    ensures confirmed ==> !Collections.HasId(r.1, QuoteId, id)
    ensures confirmed ==> forall q :: q in r.1 <==> q in Storage.GetQuotes(s) && q.id != id
    ensures confirmed ==> forall q {:trigger multiset(r.1)[q]} :: multiset(r.1)[q] == if q.id != id then multiset(Storage.GetQuotes(s))[q] else 0
  {
    if confirmed then
      var s' := Storage.DeleteQuote(s, id);
      (s', Storage.GetQuotes(s'))
    else
      (s, loaded)
  }
}

=== FILE: seed.dfy ===
/** The seed data of constants.ts: default settings and the sample catalog. */
module Seed {
  import opened Wrappers
  import opened Types

  const DefaultUserSettings: UserSettings := UserSettings(
    companyName := "Acme Solutions Inc.",
    companyLogo := None,
    companyAddress := "123 Business Way, Suite 100\nInnovation City, ST 12345",
    companyEmail := "billing@acmesolutions.com",
    companyPhone := "+1 (555) 000-0000",
    defaultTaxRate := 8.5,
    defaultTaxLabel := "Sales Tax",
    defaultTerms := "1. Payment is due within 30 days of quote acceptance.\n2. All prices are valid for 30 days.\n3. Custom software services include a 1-year maintenance period.")

  const SampleProducts: seq<Product> := [
    Product(
      id := "1",
      name := "Standard Laptop Pro",
      description := "High performance laptop with 32GB RAM, 1TB SSD.",
      price := 1499.00,
      sku := "HW-LP-001",
      category := "Hardware",
      unit := "unit",
      imageUrl := None,
      active := true),
    Product(
      id := "2",
      name := "Cloud Hosting Monthly",
      description := "Scalable cloud infrastructure hosting.",
      price := 49.99,
      sku := "SW-CL-002",
      category := "Software",
      unit := "month",
      imageUrl := None,
      active := true),
    Product(
      id := "3",
      name := "Professional Consulting",
      description := "Hourly rate for expert IT consulting services.",
      price := 150.00,
      sku := "SR-CS-003",
      category := "Service",
      unit := "hour",
      imageUrl := None,
      active := true)
  ]
}

=== FILE: storage.dfy ===
/** The storage service (services/storageService.ts). Browser local storage is
    a map from the four keys to stored values; serialisation to and from JSON
    is the identity, so a stored value is the record list or settings itself. */
module Storage {
  import opened Types
  import Collections
  import Seed

  datatype Key = ProductsKey | QuotesKey | TemplatesKey | SettingsKey

  /** The local-storage key strings. */
  function KeyName(k: Key): (name: string)
    ensures |name| > 3 && name[..3] == "qq_"
  {
    match k
    case ProductsKey => "qq_products"
    case QuotesKey => "qq_quotes"
    case TemplatesKey => "qq_templates"
    case SettingsKey => "qq_settings"
  }

  /** The four keys are four different local-storage entries. */
  lemma KeyNamesDistinct(a: Key, b: Key)
    ensures KeyName(a) == KeyName(b) <==> a == b
  {
  }

  /** What one key holds. */
  datatype Blob =
    | ProductList(products: seq<Product>)
    | QuoteList(quotes: seq<Quote>)
    | TemplateList(templates: seq<QuoteTemplate>)
    | SettingsRecord(settings: UserSettings)

  type Store = map<Key, Blob>

  /** Each key present holds the kind of value its writer stores there. */
  predicate WellTyped(s: Store)
  {
    && (ProductsKey in s ==> s[ProductsKey].ProductList?)
    && (QuotesKey in s ==> s[QuotesKey].QuoteList?)
    && (TemplatesKey in s ==> s[TemplatesKey].TemplateList?)
    && (SettingsKey in s ==> s[SettingsKey].SettingsRecord?)
  }

  /** Every key other than `k` is as it was. */
  predicate OthersUnchanged(s: Store, r: Store, k: Key)
  {
    forall k' :: k' != k ==> (k' in r <==> k' in s) && (k' in s ==> r[k'] == s[k'])
  }

  /** `getProducts`: the stored catalog; on the first read (nothing stored) the
      sample products are stored and returned. The store after the read is returned too. */
  function GetProducts(s: Store): (r: (Store, seq<Product>))
    requires WellTyped(s)
    ensures WellTyped(r.0)
    ensures ProductsKey in r.0 && r.0[ProductsKey] == ProductList(r.1)
    ensures ProductsKey !in s ==> r.1 == Seed.SampleProducts
    ensures ProductsKey in s ==> r.0 == s
    ensures OthersUnchanged(s, r.0, ProductsKey)
  {
    if ProductsKey !in s then
      (SaveProducts(s, Seed.SampleProducts), Seed.SampleProducts)
    else
      (s, s[ProductsKey].products)
  }

  /** `saveProducts`: replace the whole catalog. */
  function SaveProducts(s: Store, products: seq<Product>): (r: Store)
    requires WellTyped(s)
    ensures WellTyped(r)
    ensures OthersUnchanged(s, r, ProductsKey)
    ensures ProductsKey in r && r[ProductsKey] == ProductList(products)
  {
    s[ProductsKey := ProductList(products)]
  }

  /** The first read seeds the three sample products; a second read returns the
      same three and stores nothing more. */
  lemma ProductsSeedOnce(s: Store)
    requires WellTyped(s) && ProductsKey !in s
    ensures GetProducts(s).1 == Seed.SampleProducts && |GetProducts(s).1| == 3
    ensures GetProducts(GetProducts(s).0) == GetProducts(s)
  {
  }

  /** Reading back a saved catalog gives it unchanged, and the read writes nothing. */
  lemma ProductsRoundTrip(s: Store, products: seq<Product>)
    requires WellTyped(s)
    ensures GetProducts(SaveProducts(s, products)) == (SaveProducts(s, products), products)
  {
  }

  /** `getQuotes`: the stored quotes, or none when the key is absent. */
  function GetQuotes(s: Store): (qs: seq<Quote>)
    requires WellTyped(s)
    ensures QuotesKey !in s ==> qs == []
  {
    if QuotesKey in s then s[QuotesKey].quotes else []
  }

  /** `saveQuote`: the quote replaces the stored quote with its id, in place, or is appended. */
  function SaveQuote(s: Store, q: Quote): (r: Store)
    requires WellTyped(s)
    ensures WellTyped(r)
    ensures OthersUnchanged(s, r, QuotesKey)
    ensures q in GetQuotes(r)
    ensures Collections.HasId(GetQuotes(s), QuoteId, q.id) ==> |GetQuotes(r)| == |GetQuotes(s)|
    ensures Collections.HasId(GetQuotes(s), QuoteId, q.id) ==> var i := Collections.FindIndex(GetQuotes(s), QuoteId, q.id);
      GetQuotes(r)[i] == q && forall j :: 0 <= j < |GetQuotes(s)| && j != i ==> GetQuotes(r)[j] == GetQuotes(s)[j]
    ensures !Collections.HasId(GetQuotes(s), QuoteId, q.id) ==> GetQuotes(r) == GetQuotes(s) + [q]
    ensures Collections.Without(GetQuotes(r), QuoteId, q.id) == Collections.Without(GetQuotes(s), QuoteId, q.id)
    ensures Collections.UniqueIds(GetQuotes(s), QuoteId) ==> Collections.UniqueIds(GetQuotes(r), QuoteId)
  {
    s[QuotesKey := QuoteList(Collections.Upsert(GetQuotes(s), q, QuoteId))]
  }

  /** Saving the same quote twice has the effect of saving it once. */
  lemma SaveQuoteIdempotent(s: Store, q: Quote)
    requires WellTyped(s)
    ensures SaveQuote(SaveQuote(s, q), q) == SaveQuote(s, q)
  {
    Collections.UpsertIdempotent(GetQuotes(s), q, QuoteId);
  }

  /** `deleteQuote`: every quote with the id goes, the rest stay in order. */
  function DeleteQuote(s: Store, id: string): (r: Store)
    requires WellTyped(s)
    ensures WellTyped(r)
    ensures OthersUnchanged(s, r, QuotesKey)
    ensures !Collections.HasId(GetQuotes(r), QuoteId, id)
    ensures forall q :: q in GetQuotes(r) <==> q in GetQuotes(s) && q.id != id
    ensures forall q {:trigger multiset(GetQuotes(r))[q]} :: multiset(GetQuotes(r))[q] == if q.id != id then multiset(GetQuotes(s))[q] else 0
    ensures Collections.IsSubsequence(GetQuotes(r), GetQuotes(s))
    ensures !Collections.HasId(GetQuotes(s), QuoteId, id) ==> GetQuotes(r) == GetQuotes(s)
    ensures Collections.UniqueIds(GetQuotes(s), QuoteId) ==> Collections.UniqueIds(GetQuotes(r), QuoteId)
  {
    var kept := Collections.Without(GetQuotes(s), QuoteId, id);
    Collections.WithoutProperties(GetQuotes(s), QuoteId, id);
    s[QuotesKey := QuoteList(kept)]
  }

  /** `getTemplates`: the stored templates, or none when the key is absent. */
  function GetTemplates(s: Store): (ts: seq<QuoteTemplate>)
    requires WellTyped(s)
    ensures TemplatesKey !in s ==> ts == []
  {
    if TemplatesKey in s then s[TemplatesKey].templates else []
  }

  /** `saveTemplate`: the template replaces the stored one with its id, in place, or is appended. */
  function SaveTemplate(s: Store, t: QuoteTemplate): (r: Store)
    requires WellTyped(s)
    ensures WellTyped(r)
    ensures OthersUnchanged(s, r, TemplatesKey)
    ensures t in GetTemplates(r)
    ensures Collections.HasId(GetTemplates(s), TemplateId, t.id) ==> |GetTemplates(r)| == |GetTemplates(s)|
    ensures Collections.HasId(GetTemplates(s), TemplateId, t.id) ==> var i := Collections.FindIndex(GetTemplates(s), TemplateId, t.id);
      GetTemplates(r)[i] == t && forall j :: 0 <= j < |GetTemplates(s)| && j != i ==> GetTemplates(r)[j] == GetTemplates(s)[j]
    ensures !Collections.HasId(GetTemplates(s), TemplateId, t.id) ==> GetTemplates(r) == GetTemplates(s) + [t]
    ensures Collections.Without(GetTemplates(r), TemplateId, t.id) == Collections.Without(GetTemplates(s), TemplateId, t.id)
    ensures Collections.UniqueIds(GetTemplates(s), TemplateId) ==> Collections.UniqueIds(GetTemplates(r), TemplateId)
  {
    s[TemplatesKey := TemplateList(Collections.Upsert(GetTemplates(s), t, TemplateId))]
  }

  /** Saving the same template twice has the effect of saving it once. */
  lemma SaveTemplateIdempotent(s: Store, t: QuoteTemplate)
    requires WellTyped(s)
    ensures SaveTemplate(SaveTemplate(s, t), t) == SaveTemplate(s, t)
  {
    Collections.UpsertIdempotent(GetTemplates(s), t, TemplateId);
  }

  /** `deleteTemplate`: every template with the id goes, the rest stay in order. */
  function DeleteTemplate(s: Store, id: string): (r: Store)
    requires WellTyped(s)
    ensures WellTyped(r)
    ensures OthersUnchanged(s, r, TemplatesKey)
    ensures !Collections.HasId(GetTemplates(r), TemplateId, id)
    ensures forall t :: t in GetTemplates(r) <==> t in GetTemplates(s) && t.id != id
    ensures forall t {:trigger multiset(GetTemplates(r))[t]} :: multiset(GetTemplates(r))[t] == if t.id != id then multiset(GetTemplates(s))[t] else 0
    ensures Collections.IsSubsequence(GetTemplates(r), GetTemplates(s))
    ensures !Collections.HasId(GetTemplates(s), TemplateId, id) ==> GetTemplates(r) == GetTemplates(s)
    ensures Collections.UniqueIds(GetTemplates(s), TemplateId) ==> Collections.UniqueIds(GetTemplates(r), TemplateId)
  {
    var kept := Collections.Without(GetTemplates(s), TemplateId, id);
    Collections.WithoutProperties(GetTemplates(s), TemplateId, id);
    s[TemplatesKey := TemplateList(kept)]
  }

  /** `getSettings`: the stored settings, or the defaults when the key is absent. */
  function GetSettings(s: Store): (u: UserSettings)
    requires WellTyped(s)
    ensures SettingsKey !in s ==> u == Seed.DefaultUserSettings
  {
    if SettingsKey in s then s[SettingsKey].settings else Seed.DefaultUserSettings
  }

  /** `saveSettings`: overwrite the settings wholesale. */
  function SaveSettings(s: Store, u: UserSettings): (r: Store)
    requires WellTyped(s)
    ensures WellTyped(r)
    ensures OthersUnchanged(s, r, SettingsKey)
    ensures GetSettings(r) == u
  {
    s[SettingsKey := SettingsRecord(u)]
  }

  /** Nothing stored yet: no quotes, no templates, the default settings, and a
      catalog that the first read seeds. */
  lemma EmptyStoreDefaults()
    ensures WellTyped(map[])
    ensures GetQuotes(map[]) == [] && GetTemplates(map[]) == []
    ensures GetSettings(map[]) == Seed.DefaultUserSettings
    ensures GetProducts(map[]).1 == Seed.SampleProducts
  {
  }

  /** Each save leaves the other collections readable exactly as before. */
  lemma SavesAreIndependent(s: Store, q: Quote, t: QuoteTemplate, u: UserSettings, ps: seq<Product>)
    requires WellTyped(s)
    ensures GetTemplates(SaveQuote(s, q)) == GetTemplates(s) && GetSettings(SaveQuote(s, q)) == GetSettings(s)
    ensures GetProducts(SaveQuote(s, q)).1 == GetProducts(s).1
    ensures GetQuotes(SaveTemplate(s, t)) == GetQuotes(s) && GetSettings(SaveTemplate(s, t)) == GetSettings(s)
    ensures GetProducts(SaveTemplate(s, t)).1 == GetProducts(s).1
    ensures GetQuotes(SaveSettings(s, u)) == GetQuotes(s) && GetTemplates(SaveSettings(s, u)) == GetTemplates(s)
    ensures GetProducts(SaveSettings(s, u)).1 == GetProducts(s).1
    ensures GetQuotes(SaveProducts(s, ps)) == GetQuotes(s) && GetTemplates(SaveProducts(s, ps)) == GetTemplates(s)
  {
    CatalogUnchanged(s, SaveQuote(s, q), QuotesKey);
    CatalogUnchanged(s, SaveTemplate(s, t), TemplatesKey);
    CatalogUnchanged(s, SaveSettings(s, u), SettingsKey);
  }

  /** A write under another key does not change what `getProducts` returns. */
  lemma CatalogUnchanged(s: Store, r: Store, k: Key)
    requires WellTyped(s) && WellTyped(r)
    requires k != ProductsKey && OthersUnchanged(s, r, k)
    ensures GetProducts(r).1 == GetProducts(s).1
  {
    assert (ProductsKey in r <==> ProductsKey in s) && (ProductsKey in s ==> r[ProductsKey] == s[ProductsKey]);
  }
}

=== FILE: templates_page.dfy ===
/** The template library (pages/Templates.tsx): cloning, the save guard, the
    item edits of the template form, search, and confirmation-gated deletion. */
module TemplatesPage {
  import opened Wrappers
  import opened Types
  import Collections
  import Text
  import LineItems
  import Storage

  /** The copy `handleClone` makes: a fresh id, the name with " (Copy)" appended,
      the same description, and the items under fresh ids. */
  function Clone(t: QuoteTemplate, freshId: string, itemIds: seq<string>): (c: QuoteTemplate)
    requires |itemIds| == |t.items|
    ensures c.id == freshId && c.name == t.name + " (Copy)" && c.description == t.description
    ensures LineItems.SameButIds(c.items, t.items)
    ensures forall i :: 0 <= i < |c.items| ==> c.items[i].id == itemIds[i]
    ensures LineItems.Distinct(itemIds) ==> Collections.UniqueIds(c.items, ItemId)
  {
    t.(id := freshId, name := t.name + " (Copy)", items := LineItems.WithIds(t.items, itemIds))
  }

  /** `handleClone`: the clone is saved and the list reloaded. With a fresh id it
      is appended and every stored template, the original included, stays as it was. */
  function HandleClone(s: Storage.Store, t: QuoteTemplate, freshId: string, itemIds: seq<string>): (r: (Storage.Store, seq<QuoteTemplate>))
    requires Storage.WellTyped(s)
    requires |itemIds| == |t.items|
    ensures Storage.WellTyped(r.0) && r.1 == Storage.GetTemplates(r.0)
    ensures Storage.OthersUnchanged(s, r.0, Storage.TemplatesKey)
    ensures Clone(t, freshId, itemIds) in r.1
    ensures !Collections.HasId(Storage.GetTemplates(s), TemplateId, freshId) ==>
      r.1 == Storage.GetTemplates(s) + [Clone(t, freshId, itemIds)]
  {
    var s' := Storage.SaveTemplate(s, Clone(t, freshId, itemIds));
    (s', Storage.GetTemplates(s'))
  }

  /** `handleSaveTemplate`: refused when no template is being edited or its name
      is empty; otherwise the template is saved. */
  function HandleSaveTemplate(s: Storage.Store, editing: Option<QuoteTemplate>): (r: Result<Storage.Store, SaveError>)
    requires Storage.WellTyped(s)
    ensures r.Failure? <==> editing.None? || editing.value.name == ""
    ensures r.Failure? ==> r.error == MissingTemplateName
    ensures r.Success? ==> r.value == Storage.SaveTemplate(s, editing.value)
    ensures r.Success? ==> Storage.WellTyped(r.value) && editing.value in Storage.GetTemplates(r.value)
    ensures r.Success? ==> Storage.OthersUnchanged(s, r.value, Storage.TemplatesKey)
  {
    if editing.None? || editing.value.name == "" then Failure(MissingTemplateName)
    else Success(Storage.SaveTemplate(s, editing.value))
  }

  /** `addItemToTemplate`: append one line for the product to the template being
      edited; with no template open nothing happens. */
  function AddItemToTemplate(editing: Option<QuoteTemplate>, p: Product, freshId: string): (r: Option<QuoteTemplate>)
    ensures editing.None? ==> r.None?
    ensures editing.Some? ==> r.Some? && r.value.(items := editing.value.items) == editing.value
    ensures editing.Some? ==>
      && |r.value.items| == |editing.value.items| + 1
      && r.value.items[..|editing.value.items|] == editing.value.items
      && var it := r.value.items[|editing.value.items|];
      && it.id == freshId && it.productId == Some(p.id) && it.name == p.name
      && it.description == Some(p.description) && it.price == p.price && it.notes.None?
      && it.quantity == 1.0 && it.discountType == Percentage && it.discountValue == 0.0
  {
    if editing.None? then None
    else
      var t := editing.value;
      assert (t.items + [LineItems.FromProduct(p, freshId)])[..|t.items|] == t.items;
      Some(t.(items := t.items + [LineItems.FromProduct(p, freshId)]))
  }

  /** `removeItemFromTemplate`: drop the lines with the id, keep the rest in order. */
  function RemoveItemFromTemplate(editing: Option<QuoteTemplate>, itemId: string): (r: Option<QuoteTemplate>)
    ensures editing.None? ==> r.None?
    ensures editing.Some? ==> r.Some? && r.value.(items := editing.value.items) == editing.value
    ensures editing.Some? ==>
      && (forall it :: it in r.value.items <==> it in editing.value.items && it.id != itemId)
      && (forall it {:trigger multiset(r.value.items)[it]} ::
            multiset(r.value.items)[it] == if it.id != itemId then multiset(editing.value.items)[it] else 0)
      && Collections.IsSubsequence(r.value.items, editing.value.items)
  {
    if editing.None? then None
    else Some(editing.value.(items := LineItems.RemoveById(editing.value.items, itemId)))
  }

  /** The search test: the term occurs, ignoring case, in the name or the description. */
  predicate MatchesSearch(t: QuoteTemplate, term: string)
  {
    Text.Matches(t.name, term) || Text.Matches(t.description, term)
  }

  /** `filteredTemplates`: the templates passing the search, in stored order. */
  function FilteredTemplates(templates: seq<QuoteTemplate>, term: string): (r: seq<QuoteTemplate>)
    ensures forall t :: t in r <==> t in templates && MatchesSearch(t, term)
    ensures forall t {:trigger multiset(r)[t]} :: multiset(r)[t] == if MatchesSearch(t, term) then multiset(templates)[t] else 0
    ensures Collections.IsSubsequence(r, templates)
  {
    Collections.Filter(templates, t => MatchesSearch(t, term))
  }

  /** An empty search shows every template. */
  lemma ShowAll(templates: seq<QuoteTemplate>)
    ensures FilteredTemplates(templates, "") == templates
  {
    forall i | 0 <= i < |templates|
      ensures MatchesSearch(templates[i], "")
    {
      Text.MatchesProperties(templates[i].name, "");
    }
    Collections.FilterKeepsAll(templates, t => MatchesSearch(t, ""));
  }

  /** `handleDelete`: with the user's confirmation the template is deleted and
      the list re-read from storage; declined, neither storage nor the page's
      loaded list changes. */
  function HandleDelete(s: Storage.Store, loaded: seq<QuoteTemplate>, id: string, confirmed: bool): (r: (Storage.Store, seq<QuoteTemplate>))
    requires Storage.WellTyped(s)
    ensures Storage.WellTyped(r.0)
    ensures !confirmed ==> r == (s, loaded)
    ensures confirmed ==> r.0 == Storage.DeleteTemplate(s, id) && r.1 == Storage.GetTemplates(r.0)
    ensures confirmed ==> Storage.OthersUnchanged(s, r.0, Storage.TemplatesKey)
    ensures confirmed ==> Collections.IsSubsequence(r.1, Storage.GetTemplates(s))
    ensures confirmed ==> !Collections.HasId(r.1, TemplateId, id)
    ensures confirmed ==> forall t :: t in r.1 <==> t in Storage.GetTemplates(s) && t.id != id
    ensures confirmed ==> forall t {:trigger multiset(r.1)[t]} :: multiset(r.1)[t] == if t.id != id then multiset(Storage.GetTemplates(s))[t] else 0
  {
    if confirmed then
      var s' := Storage.DeleteTemplate(s, id);
      (s', Storage.GetTemplates(s'))
    else
      (s, loaded)
  }
}

=== FILE: text.dfy ===
/** String helpers the pages rely on: ASCII `toLowerCase`, `includes`,
    `Number.toString`, `padStart`, and the quote-number format
    `Q-<YYYYMMDD>-<NNN>` built from an ISO timestamp and a count. */
module Text {
  import Collections

  /** `toLowerCase` restricted to ASCII: A-Z map to a-z, every other character is kept. */
  function LowerChar(c: char): char
  {
    if 'A' <= c <= 'Z' then (c as int + 32) as char else c
  }

  /** `toLowerCase` over a string, character by character. */
  function ToLower(s: string): (r: string)
    ensures |r| == |s|
    ensures forall i :: 0 <= i < |s| && 'A' <= s[i] <= 'Z' ==> r[i] == (s[i] as int + 32) as char
    ensures forall i :: 0 <= i < |r| ==> !('A' <= r[i] <= 'Z')
    ensures forall i :: 0 <= i < |s| && !('A' <= s[i] <= 'Z') ==> r[i] == s[i]
  {
    seq(|s|, i requires 0 <= i < |s| => LowerChar(s[i]))
  }

  /** Lower-casing twice is lower-casing once. */
  lemma ToLowerIdempotent(s: string)
    ensures ToLower(ToLower(s)) == ToLower(s)
  {
  }

  predicate StartsWith(s: string, prefix: string)
  {
    |prefix| <= |s| && s[..|prefix|] == prefix
  }

  /** `needle` occurs in `hay` starting at position `i`. */
  predicate OccursAt(hay: string, needle: string, i: int)
  {
    0 <= i <= |hay| - |needle| && hay[i..i + |needle|] == needle
  }

  /** `String.prototype.includes`: `needle` occurs in `hay` at some position. */
  function Includes(hay: string, needle: string): (b: bool)
    ensures b <==> exists i :: OccursAt(hay, needle, i)
    decreases |hay|
  {
    if StartsWith(hay, needle) then
      assert OccursAt(hay, needle, 0);
      true
    else if |hay| == 0 then
      false
    else
      OccursShift(hay, needle);
      Includes(hay[1..], needle)
  }

  /** An occurrence past the first position is an occurrence in the tail, and back. */
  lemma OccursShift(hay: string, needle: string)
    requires |hay| > 0 && !StartsWith(hay, needle)
    ensures (exists i :: OccursAt(hay, needle, i)) <==> (exists j :: OccursAt(hay[1..], needle, j))
  {
    forall j | OccursAt(hay[1..], needle, j)
      ensures OccursAt(hay, needle, j + 1)
    {
      assert hay[j + 1..j + 1 + |needle|] == hay[1..][j..j + |needle|];
    }
    forall i | OccursAt(hay, needle, i)
      ensures OccursAt(hay[1..], needle, i - 1)
    {
      assert i != 0 by {
        if i == 0 {
          assert hay[..|needle|] == hay[0..|needle|];
        }
      }
      var u := hay[1..][i - 1..i - 1 + |needle|];
      var v := hay[i..i + |needle|];
      forall k | 0 <= k < |u|
        ensures u[k] == v[k]
      {
      }
      assert u == v;
    }
  }

  /** The search test of the list pages: `text.toLowerCase().includes(term.toLowerCase())`. */
  predicate Matches(text: string, term: string)
  {
    Includes(ToLower(text), ToLower(term))
  }

  /** An empty search term matches every text, and the test ignores the case of the term. */
  lemma MatchesProperties(text: string, term: string)
    ensures Matches(text, "")
    ensures Matches(text, ToLower(term)) == Matches(text, term)
  {
    assert OccursAt(ToLower(text), "", 0);
    ToLowerIdempotent(term);
  }

  predicate IsDigit(c: char)
  {
    '0' <= c <= '9'
  }

  predicate AllDigits(s: string)
  {
    forall i :: 0 <= i < |s| ==> IsDigit(s[i])
  }

  function DigitChar(d: nat): (c: char)
    requires d < 10
    ensures IsDigit(c)
  {
    ('0' as int + d) as char
  }

  function DigitValue(c: char): nat
    requires IsDigit(c)
  {
    c as int - '0' as int
  }

  /** `n.toString()` for a non-negative integer: decimal digits, no leading zero. */
  function DecimalString(n: nat): (s: string)
    ensures 1 <= |s|
    ensures AllDigits(s)
    ensures |s| > 1 ==> s[0] != '0'
  {
    if n < 10 then [DigitChar(n)] else DecimalString(n / 10) + [DigitChar(n % 10)]
  }

  /** The number a digit string denotes, read left to right. */
  function DecimalValue(s: string): nat
    requires AllDigits(s)
  {
    if |s| == 0 then 0 else DecimalValue(s[..|s| - 1]) * 10 + DigitValue(s[|s| - 1])
  }

  /** Reading back the decimal string of `n` gives `n`. */
  lemma {:induction false} DecimalRoundTrip(n: nat)
    ensures DecimalValue(DecimalString(n)) == n
  {
    if n >= 10 {
      var s := DecimalString(n);
      assert s[..|s| - 1] == DecimalString(n / 10);
      DecimalRoundTrip(n / 10);
    }
  }

  /** A leading zero does not change the value of a digit string. */
  lemma {:induction false} LeadingZero(s: string)
    requires AllDigits(s)
    ensures DecimalValue(['0'] + s) == DecimalValue(s)
  {
    if |s| > 0 {
      assert (['0'] + s)[..|s|] == ['0'] + s[..|s| - 1];
      LeadingZero(s[..|s| - 1]);
    }
  }

  function Repeat(c: char, k: nat): (r: string)
    ensures |r| == k
    ensures forall i :: 0 <= i < k ==> r[i] == c
  {
    if k == 0 then [] else [c] + Repeat(c, k - 1)
  }

  /** Any number of leading zeros does not change the value of a digit string. */
  lemma {:induction false} LeadingZeros(k: nat, s: string)
    requires AllDigits(s)
    ensures AllDigits(Repeat('0', k) + s)
    ensures DecimalValue(Repeat('0', k) + s) == DecimalValue(s)
  {
    if k > 0 {
      LeadingZeros(k - 1, s);
      assert Repeat('0', k) == ['0'] + Repeat('0', k - 1);
      assert Repeat('0', k) + s == ['0'] + (Repeat('0', k - 1) + s);
      LeadingZero(Repeat('0', k - 1) + s);
      assert DecimalValue(Repeat('0', k) + s) == DecimalValue(['0'] + (Repeat('0', k - 1) + s));
    } else {
      assert Repeat('0', k) + s == s;
    }
  }

  /** `s.padStart(width, fill)`: `s` preceded by as many `fill` characters as
      bring it to `width`; a string already that long is returned as is. */
  function PadStart(s: string, width: nat, fill: char): (r: string)
    ensures |r| == if |s| >= width then |s| else width
    ensures r[|r| - |s|..] == s
    ensures forall i :: 0 <= i < |r| - |s| ==> r[i] == fill
  {
    if |s| >= width then s else Repeat(fill, width - |s|) + s
  }

  /** `s.slice(0, n)`. */
  function Take(s: string, n: nat): (r: string)
    ensures |r| == if n <= |s| then n else |s|
    ensures StartsWith(s, r)
  {
    if n <= |s| then s[..n] else s
  }

  predicate NotDash(c: char)
  {
    c != '-'
  }

  /** `s.replace(/-/g, '')`. */
  function StripDashes(s: string): (r: string)
    ensures forall i :: 0 <= i < |r| ==> r[i] != '-'
    ensures forall c :: c in r <==> c in s && c != '-'
    ensures forall c {:trigger multiset(r)[c]} :: multiset(r)[c] == if c == '-' then 0 else multiset(s)[c]
    ensures Collections.IsSubsequence(r, s)
    ensures '-' !in s ==> r == s
  {
    var r := Collections.Filter(s, NotDash);
    assert forall i :: 0 <= i < |r| ==> r[i] in r;
    if '-' in s then r
    else
      Collections.FilterKeepsAll(s, NotDash);
      r
  }

  /** `s.split(sep)[0]`: the part of `s` before the first `sep`, or all of `s`. */
  function BeforeFirst(s: string, sep: char): (r: string)
    ensures StartsWith(s, r)
    ensures sep !in r
    ensures |r| < |s| ==> s[|r|] == sep
  {
    if |s| == 0 then []
    else if s[0] == sep then []
    else [s[0]] + BeforeFirst(s[1..], sep)
  }

  /** The shape `YYYY-MM-DDT…` that `Date.prototype.toISOString` produces. */
  predicate IsIsoTimestamp(iso: string)
  {
    && |iso| > 10
    && iso[4] == '-' && iso[7] == '-' && iso[10] == 'T'
    && AllDigits(iso[0..4]) && AllDigits(iso[5..7]) && AllDigits(iso[8..10])
  }

  /** `toISOString().split('T')[0]`: the `YYYY-MM-DD` date of a timestamp. */
  function IsoDate(iso: string): (d: string)
    ensures IsIsoTimestamp(iso) ==> d == iso[..10]
  {
    if IsIsoTimestamp(iso) then
      assert forall i :: 0 <= i < 10 ==> iso[i] != 'T' by {
        forall i | 0 <= i < 10 ensures iso[i] != 'T' {
          if i < 4 { assert iso[i] == iso[0..4][i]; }
          else if 4 < i < 7 { assert iso[i] == iso[5..7][i - 5]; }
          else if 7 < i { assert iso[i] == iso[8..10][i - 8]; }
        }
      }
      var d := BeforeFirst(iso, 'T');
      assert |d| == 10;
      d
    else
      BeforeFirst(iso, 'T')
  }

  /** The three-digit (or longer) sequence part of a quote number. */
  function SequencePart(count: nat): (s: string)
    ensures AllDigits(s)
    ensures DecimalValue(s) == count + 1
    ensures 3 <= |s|
    ensures count < 999 ==> |s| == 3
    ensures |s| > 3 ==> s[0] != '0'
    ensures |DecimalString(count + 1)| >= 3 ==> s == DecimalString(count + 1)
  {
    var d := DecimalString(count + 1);
    DecimalRoundTrip(count + 1);
    assert count < 999 ==> |d| <= 3 by {
      if count < 999 && |d| > 3 {
        Pow10Monotone(3, |d| - 1);
        assert Pow10(3) == 1000;
        DecimalMagnitude(d);
      }
    }
    if |d| >= 3 then
      d
    else
      LeadingZeros(3 - |d|, d);
      Repeat('0', 3 - |d|) + d
  }

  function Pow10(k: nat): (p: nat)
    ensures p >= 1
  {
    if k == 0 then 1 else 10 * Pow10(k - 1)
  }

  lemma {:induction false} Pow10Monotone(j: nat, k: nat)
    requires j <= k
    ensures Pow10(j) <= Pow10(k)
  {
    if j < k {
      Pow10Monotone(j, k - 1);
    }
  }

  /** A digit string without a leading zero has a value of at least 10^(length-1). */
  lemma {:induction false} DecimalMagnitude(s: string)
    requires AllDigits(s) && |s| >= 1 && s[0] != '0'
    ensures DecimalValue(s) >= Pow10(|s| - 1)
  {
    if |s| > 1 {
      assert s[..|s| - 1][0] == s[0];
      DecimalMagnitude(s[..|s| - 1]);
    } else {
      assert s[..0] == [];
    }
  }

  /** The quote number `Q-<date without dashes>-<count+1 padded to 3 digits>`,
      with `iso` the creation timestamp and `count` the number of quotes known. */
  function QuoteNumber(iso: string, count: nat): (r: string)
    ensures |r| >= 6 && r[..2] == "Q-"
    ensures var tail := SequencePart(count);
      && |r| > 2 + |tail|
      && r[|r| - |tail|..] == tail
      && r[|r| - |tail| - 1] == '-'
      && forall i :: 2 <= i < |r| - |tail| - 1 ==> r[i] != '-'
  {
    var day := StripDashes(Take(iso, 10));
    var tail := PadStart(DecimalString(count + 1), 3, '0');
    assert tail == SequencePart(count);
    var r := "Q-" + day + "-" + tail;
    assert r[2..2 + |day|] == day;
    assert r[|r| - |tail|..] == tail;
    r
  }

  /** For a well-formed timestamp the number is `Q-YYYYMMDD-NNN`: its date part is the
      timestamp's date without dashes (the quote's `date` field, without dashes), and
      its sequence part reads back as `count + 1`, in exactly three digits below 999 quotes. */
  lemma QuoteNumberShape(iso: string, count: nat)
    requires IsIsoTimestamp(iso)
    ensures QuoteNumber(iso, count) == "Q-" + iso[0..4] + iso[5..7] + iso[8..10] + "-" + SequencePart(count)
    ensures StripDashes(IsoDate(iso)) == iso[0..4] + iso[5..7] + iso[8..10]
    ensures count < 999 ==> |QuoteNumber(iso, count)| == 14
  {
    var ymd := iso[0..4] + iso[5..7] + iso[8..10];
    var seqPart := PadStart(DecimalString(count + 1), 3, '0');
    assert seqPart == SequencePart(count);
    IsoDateDigits(iso);
    assert QuoteNumber(iso, count) == "Q-" + ymd + "-" + seqPart;
  }

  /** The first ten characters of a timestamp, without dashes, are its eight date digits. */
  lemma IsoDateDigits(iso: string)
    requires IsIsoTimestamp(iso)
    ensures StripDashes(Take(iso, 10)) == iso[0..4] + iso[5..7] + iso[8..10]
    ensures IsoDate(iso) == Take(iso, 10)
  {
    assert Take(iso, 10) == iso[0..4] + "-" + iso[5..7] + "-" + iso[8..10];
    StripDashesJoin(iso[0..4], iso[5..7], iso[8..10]);
  }

  /** Removing the two separators of `a-b-c` leaves `abc` when the parts are digits. */
  lemma StripDashesJoin(a: string, b: string, c: string)
    requires AllDigits(a) && AllDigits(b) && AllDigits(c)
    ensures StripDashes(a + "-" + b + "-" + c) == a + b + c
  {
    Collections.FilterKeepsAll(a, NotDash);
    StripDashesStep(a, b);
    StripDashesStep(a + "-" + b, c);
  }

  /** Removing dashes from `x-y`, with `y` made of digits, is removing them from `x` and appending `y`. */
  lemma StripDashesStep(x: string, y: string)
    requires AllDigits(y)
    ensures StripDashes(x + "-" + y) == StripDashes(x) + y
  {
    Collections.FilterKeepsAll(y, NotDash);
    assert Collections.Filter("-", NotDash) == [];
    Collections.FilterConcat(x, "-", NotDash);
    Collections.FilterConcat(x + "-", y, NotDash);
  }

  /** Within one day, different counts give different quote numbers. */
  lemma QuoteNumberInjective(iso: string, a: nat, b: nat)
    requires a != b
    ensures QuoteNumber(iso, a) != QuoteNumber(iso, b)
  {
    var head := "Q-" + StripDashes(Take(iso, 10)) + "-";
    var sa := PadStart(DecimalString(a + 1), 3, '0');
    var sb := PadStart(DecimalString(b + 1), 3, '0');
    assert sa == SequencePart(a) && sb == SequencePart(b);
    assert QuoteNumber(iso, a) == head + sa;
    assert QuoteNumber(iso, b) == head + sb;
    assert sa == (head + sa)[|head|..];
    assert sb == (head + sb)[|head|..];
  }
}

=== FILE: types.dfy ===
/** The records of the quoting tool (types.ts). Money, quantities and rates are
    exact rationals; strings are sequences of characters. */
module Types {
  import opened Wrappers

  /** QuoteStatus, with its string values given by StatusName. */
  datatype QuoteStatus = Draft | Sent | Accepted | Rejected | Expired

  /** DiscountType: a fixed amount or a percentage of the amount it applies to. */
  datatype DiscountType = Fixed | Percentage

  datatype Product = Product(
    id: string,
    name: string,
    description: string,
    price: real,
    sku: string,
    category: string,
    unit: string,
    imageUrl: Option<string>,
    active: bool)

  /** One priced row of a quote or template. `productId` is a weak reference:
      later edits of the product do not reach the copy held here. */
  datatype LineItem = LineItem(
    id: string,
    productId: Option<string>,
    name: string,
    description: Option<string>,
    quantity: real,
    price: real,
    discountType: DiscountType,
    discountValue: real,
    notes: Option<string>)

  datatype Customer = Customer(
    name: string,
    company: Option<string>,
    email: string,
    phone: Option<string>,
    address: Option<string>)

  /** A quote; the last four fields are totals cached on the record. */
  datatype Quote = Quote(
    id: string,
    number: string,
    date: string,
    validUntil: string,
    customer: Customer,
    salesRep: string,
    items: seq<LineItem>,
    globalDiscountType: DiscountType,
    globalDiscountValue: real,
    taxRate: real,
    taxLabel: string,
    taxEnabled: bool,
    status: QuoteStatus,
    terms: string,
    internalNotes: string,
    subtotal: real,
    discountAmount: real,
    taxAmount: real,
    grandTotal: real)

  datatype QuoteTemplate = QuoteTemplate(
    id: string,
    name: string,
    description: string,
    items: seq<LineItem>)

  datatype UserSettings = UserSettings(
    companyName: string,
    companyLogo: Option<string>,
    companyAddress: string,
    companyEmail: string,
    companyPhone: string,
    defaultTaxRate: real,
    defaultTaxLabel: string,
    defaultTerms: string)

  /** The string value of each status, as stored and as compared by the status filter. */
  function StatusName(s: QuoteStatus): string
  {
    match s
    case Draft => "Draft"
    case Sent => "Sent"
    case Accepted => "Accepted"
    case Rejected => "Rejected"
    case Expired => "Expired"
  }

  /** Distinct statuses have distinct names, and none is the filter's "All". */
  lemma StatusNameInjective(s: QuoteStatus, t: QuoteStatus)
    ensures StatusName(s) == StatusName(t) <==> s == t
    ensures StatusName(s) != "All"
  {
  }

  /** The required-field checks the save actions apply before writing anything. */
  datatype SaveError = MissingCustomerDetails | MissingTemplateName

  // Id accessors, passed to the generic id-keyed collection operations.
  function ProductId(p: Product): string { p.id }
  function ItemId(it: LineItem): string { it.id }
  function QuoteId(q: Quote): string { q.id }
  function TemplateId(t: QuoteTemplate): string { t.id }
}

=== FILE: wrappers.dfy ===
/** Optional values and success/failure results, used for the optional fields of
    the records and for the save handlers that can refuse a write. */
module Wrappers {

  /** A value that may be absent (a TypeScript `field?: T` or a `T | null`). */
  datatype Option<+T> = None | Some(value: T)

  /** The outcome of an action that either succeeds with a value or is refused. */
  datatype Result<+R, +E> = Success(value: R) | Failure(error: E)
}
